=== FILE: README.md ===
# NYC taxi demand assistant — decision logic in Dafny

The system helps New York City taxi drivers decide where to wait for passengers. It has
four parts:

- A prediction server. Its `/predict` endpoint returns the predicted demand level of a
  pickup zone at a given hour and date. Its `/suggestions` endpoint ranks the other zones
  of the city by a score. Half of the score is demand and half is closeness to the
  driver's zone, and the endpoint returns the best three.
- A driver-assist panel. It asks for suggestions, turns away green taxis in zones where
  they may not operate, and keeps the first three valid answers. It labels them high,
  medium or low priority and "stay" or "move".
- A prediction panel. It shows the predicted level as a label, a colour and a percentage,
  and keeps a history of the last five predictions, newest first.
- A zone-enrichment script. It geocodes every row of the `taxi_zone` table, row by row,
  adds `latitude` and `longitude` columns and writes the table back.

The model is split into six modules.

- `Js` (js.dfy): values as JavaScript and SQLite see them. It covers strings that may be
  undefined or null, the truthiness test, and whole numbers written in decimal.
- `Ranking` (ranking.dfy): the scoring and selection rule of `/suggestions`. The scoring
  pass and the stable sort run in place on an `array`, as the handler does on its
  `results` array. Each is proved equal to a function on sequences, and the ordering,
  permutation and top-three properties are proved about those functions.
- `Server` (server.dfy): both handlers over the database as a value. `/suggestions` is a
  method that fills an array of candidates, scores it, sorts it and projects the best
  three. It is proved equal to the function `SuggestionsAnswer`, and the shape of the
  answer is proved about that function.
- `DriverAssist` (driver_assist.dfy): `generateSuggestions` as a transition of the
  panel's `suggestions` list, plus the two colour lookups.
- `Prediction` (prediction.dfy): `generatePrediction` as a transition of the
  `predictions` history. It includes the invariant that the history holds at most five
  entries and only the five percentages of the level table.
- `ZoneEnrich` (zone_enrich.dfy): the enrichment script, written imperatively.
  - The loop collects two lists and counts the pauses.
  - A `DataFrame` class has its columns assigned in place.
  - A `Store` class has its table replaced only after the loop completes.
  - The geocoding service is a function from an address to a reply, which is either a
    list of places or an exception.

The distance between two coordinate pairs (the haversine formula) is a function parameter
of the server model. The answers of the two endpoints are inputs of the panel models.
`None` stands for every answer that makes the panel's handler throw: a failed request, an
unreadable body, and the endpoints' own `{ error: ... }` bodies for 400, 404 and 500
(server.js:21, 44, 57, 35 and 141), on which `data.filter` and `data[0].predicted_level`
throw. A `/predict` body of `null` is the empty list `Some([])`: `!data` catches it and
the panel shows "no data".

The prediction tables store `PULocationID` and `hour` as INTEGER columns and `date` as
TEXT (import-csv-to-sqlite.js:33-58). The query parameters arrive as text, and SQLite turns
a well-formed integer text into a number before comparing it with an INTEGER column. The
model matches both integer columns through `Server.MatchesInteger`, so the panels'
zero-padded hours such as "07" select the rows of hour 7 (`Server.PaddedHourSelects`).

The server sends the labels `Very_High` and `Very_Low` with underscores. The driver-assist
panel's `demandScores` table and `getDemandColor` use spaces. The model keeps this mismatch
exactly as the code has it: such a suggestion shows the gray colour and scores 3
(`DriverAssist.UnderscoreLabelsFallBack`). The prediction panel maps the underscore labels
correctly.

Two points of the zone script's behaviour:

- A lookup that raises is not turned into null coordinates. It ends the run before the
  table is written, because the script has no exception handling.
- The replacement is a single update of the store, which is atomic in the model.

## Model

| member | source | states |
|---|---|---|
| Js.ParseDecimal | src/components/DriverAssistPanel.tsx:39 | `Number(text)` and SQLite's integer comparison give a whole number exactly for a non-empty string of decimal digits. |
| Js.ParseNatText | src/components/DriverAssistPanel.tsx:39 | Reading back the decimal text of a whole number gives that number (round trip with `NatText`). |
| Js.PadStartTwo | src/components/PredictionPanel.tsx:148 | The hour text of the select options, `padStart(2, '0')`: at least two characters, all decimal digits. |
| Js.ParsePadStartTwo | src/components/DriverAssistPanel.tsx:167 | A zero-padded whole number reads back as that number, so "07" denotes 7. |
| Ranking.DemandLevel | server.js:94 | An absent, null or empty level reads as "Medium"; any other level is kept, so the result is never empty. |
| Ranking.LevelScore | server.js:72-78 | The result is always in 1..5. Each of the five server labels scores its rank (index + 1), and any other label scores 3. |
| Ranking.MaxDistance | server.js:107 | For a non-empty list the maximum is at least every distance and equals one guarded distance, where a distance of 0 counts as 0.001. So it is never 0, and it is positive once any distance is non-negative. |
| Ranking.ScoreBounds | server.js:110-119 | For a predicted value in 1..5 and a distance in [0, max], the demand score, the closeness score and the combined score all lie in [0, 1]. |
| Ranking.ScoreMonotone | server.js:112-118 | At equal demand a closer zone never scores lower. At equal distance a higher predicted value never scores lower. |
| Ranking.Score | server.js:110-118 | For a predicted value in 1..5 and a distance between 0 and the maximum, the score lies in [0, 1]. |
| Ranking.ScoreAll | server.js:110-119 | The scoring pass keeps the number of candidates and all fields but the score, and attaches to each candidate its own score. |
| Ranking.ScoredInUnitInterval | server.js:107-119 | The scoring pass keeps the number of candidates and every field except the score. With values in 1..5 and non-negative distances, every score lies in [0, 1]. |
| Ranking.InsertPermutes | server.js:123 | Inserting into the ranking adds exactly that element (multiset). |
| Ranking.InsertMembers | server.js:123 | Every element after an insertion is the inserted one or was already there. |
| Ranking.InsertKeepsOrder | server.js:123 | Inserting into a list sorted by descending score keeps it sorted and adds exactly that element. |
| Ranking.SortDescCorrect | server.js:123 | The sort by `b.score - a.score` yields a list sorted by descending score that is a permutation of its input. |
| Ranking.SortDescOfSorted | server.js:123 | An already descending list is left exactly as it is. |
| Ranking.WithScore | server.js:123 | The entries of one score, in list order: never longer than the list, all of that score, and empty when no entry has it. |
| Ranking.WithScoreAppend | server.js:123 | Taking the entries of one score from a concatenation takes them from each part in turn. |
| Ranking.InsertAfterEquals | server.js:123 | Inserting into a descending list places the new entry after every entry of equal score. |
| Ranking.SortDescStable | server.js:123 | The sort is stable for every input: for each score, the entries with that score come out in the order they went in. |
| Ranking.InsertAtEnd | server.js:123 | An element scoring no more than every element of the list goes last, after its equals. |
| Ranking.InsertAt | server.js:123 | An element goes after the prefix that scores at least as much and before the rest. Everything else keeps its relative order. |
| Ranking.InsertedLayout | server.js:123 | A list laid out as the sorted prefix with the new element at its place is exactly the insertion result. |
| Ranking.TopThree | server.js:124 | `.slice(0, 3)`, used by the server and by the driver-assist panel: the first min(n, 3) entries, in order. |
| Ranking.TopOfSorted | server.js:124 | The first three entries of a descending list are in order and come from the list. The entry at every later position scores no more than each kept entry. |
| Ranking.LeftOutScoreLower | server.js:124 | Every entry of a descending list left out of the first three, counted with multiplicity, scores no more than each kept entry. |
| Ranking.TopThreeIsBest | server.js:122-124 | The selection has min(n, 3) entries in non-increasing score order, each a scored candidate. Every candidate left out, counted with multiplicity, scores no more than each one kept. |
| Ranking.SelectedFromCandidates | server.js:122-124 | Every selected entry is one of the candidates, with only its score attached. |
| Ranking.AssignScores | server.js:110-119 | The in-place scoring pass leaves the array equal to the candidates with the score of each attached against the given maximum. |
| Ranking.InsertIntoPrefix | server.js:123 | One in-place step: the prefix of length i + 1 becomes the insertion of element i into the sorted prefix. The rest of the array is unchanged. |
| Ranking.SortByScore | server.js:123 | The in-place sort leaves the array equal to the stable descending sort of its old contents. |
| Server.SelectLevels | server.js:26-32 | The levels of exactly the rows whose integer hour and PULocationID match the query text and whose date equals it. Every match contributes and nothing else does. A single row gives its level exactly when it matches. |
| Server.SelectLevelsAppend | server.js:26-32 | Selecting from a concatenation selects from each part in turn. With the one-row case this gives one level per matching row, in table order. |
| Server.PaddedHourSelects | server.js:29 | The zero-padded hour text of the panels selects exactly the rows of that integer hour, in `/predict` and in the join's ON clause. |
| Server.Predict | server.js:16-36 | 400 exactly when hour, date or PULocationID is missing or empty, with the type unchecked. 500 exactly when the `<type>_pred` table does not exist. Otherwise the body is exactly the selected levels of that table. |
| Server.FindOrigin | server.js:50-58 | No origin exactly when no `taxi_zone` row has that LocationID; a found origin is such a row. |
| Server.JoinedPreds | server.js:66-67 | The prediction rows the ON clause pairs with a zone: exactly those with its LocationID, the integer hour the query text denotes, and the query date. A single row is kept exactly when it matches. |
| Server.JoinedPredsAppend | server.js:66-67 | Pairing a concatenation pairs each part in turn. With the one-row case this gives one joined row per matching prediction, duplicates included, in table order. |
| Server.JoinZone | server.js:63-69 | The left join of one zone: a single row with a null level when no prediction pairs with it, and otherwise one row per paired prediction, in order, carrying that prediction's level. |
| Server.LeftJoin | server.js:63-69 | No joined row is about the origin zone. Every other zone of the table appears at least once, and every row is one of its zone's own left-join rows. A single zone gives no rows when it is the origin and otherwise exactly its `JoinZone` rows. |
| Server.LeftJoinAppend | server.js:63-69 | Joining a concatenation of zone tables joins each part in turn. With the one-zone case this gives each non-origin zone's left-join rows, one per paired prediction row, in table order. |
| Server.UnmatchedZoneIsMedium | server.js:63-100 | A zone no prediction row pairs with joins once with a null level, and so becomes a "Medium" candidate with predicted value 3. |
| Server.Candidates | server.js:92-105 | One candidate per joined row, in order. Each keeps the zone's ID, name and coordinates and reads a missing level as "Medium". Its predicted value is that level's score, in 1..5, and its distance is the distance from the origin to the zone. |
| Server.ProjectAll | server.js:125-133 | One entry per selected candidate, in order. Each keeps the candidate's ID, zone, distance, level and coordinates and adds the origin's coordinates. |
| Server.SuggestionsAnswer | server.js:38-143 | 400 exactly when a parameter is missing or empty. Then 404 exactly when the origin has no `taxi_zone` row. Then 500 exactly when the `<type>_pred` table does not exist. |
| Server.Suggestions | server.js:38-143 | The handler, with the scoring pass and the sort in place on an array, answers exactly `SuggestionsAnswer`. That is 400, then 404, then 500, then the projected best three of the stable descending sort of the scored candidates. |
| Server.MissingParameters | server.js:20-45 | `/suggestions` answers 400 exactly when type, hour, date or PULocationID is missing or empty. `/predict` never answers 400 when only the type is missing. |
| Server.UnknownOrigin | server.js:56-58 | An origin without a `taxi_zone` row gives 404 and no suggestions. |
| Server.RankedFromTable | server.js:63-69 | Each selected candidate is a zone of the table other than the origin, with that zone's ID, name and coordinates. |
| Server.ProjectEach | server.js:125-133 | Projecting candidates that each become an entry for another zone of the table gives only such entries. |
| Server.ProjectedTop | server.js:122-135 | The projected selection holds at most three entries. Each is another zone of the table carrying the origin's coordinates. |
| Server.SuggestionsShape | server.js:122-135 | A successful answer holds at most three entries. None is the origin; each is a zone of the table with its own ID, name and coordinates, plus the origin's coordinates unchanged. |
| DriverAssist.ValidItems | src/components/DriverAssistPanel.tsx:49-54 | Green taxis keep exactly the items whose zone is not banned; other types keep every item, in order. A single item is kept exactly when it is valid. |
| DriverAssist.ValidItemsAppend | src/components/DriverAssistPanel.tsx:49-54 | Filtering a concatenation filters each part in turn. With the one-item case this makes the filter keep exactly the valid items, in server order, duplicates included. |
| DriverAssist.DemandScore | src/components/DriverAssistPanel.tsx:20-26 | The result is always in 1..5. Each of the five spaced labels scores its rank, and any other label scores 3. |
| DriverAssist.ToSuggestion | src/components/DriverAssistPanel.tsx:62-74 | Priority is high exactly at index 0, medium exactly at 1 and low otherwise. The type is stay exactly at distance 0, else move. The demand is the level, or "Medium" when it is missing. The distance is kept. |
| DriverAssist.PriorityColor | src/components/DriverAssistPanel.tsx:82-89 | Total. The gray default comes exactly for strings other than high, medium and low. |
| DriverAssist.DemandColor | src/components/DriverAssistPanel.tsx:91-99 | Total. The gray default comes exactly for strings other than Very High, High, Medium and Low, so "Very Low" gets it too. |
| DriverAssist.Generate | src/components/DriverAssistPanel.tsx:36-80 | The outcome classes: nothing with an empty field, a refusal for a green taxi in a banned zone, a failure exactly when a request is sent and the answer is `None`, a refusal for a green taxi left with no valid item, and a new list otherwise. |
| DriverAssist.NoRequestNoChange | src/components/DriverAssistPanel.tsx:37-42 | An empty field does nothing, and a green taxi in a banned zone is turned away. In both cases no answer matters and the list is unchanged. |
| DriverAssist.FailureKeepsList | src/components/DriverAssistPanel.tsx:77-79 | A failed request, an unreadable body, or an endpoint error body on which `data.filter` throws leaves the list unchanged. |
| DriverAssist.EmptyChoices | src/components/DriverAssistPanel.tsx:56-59 | A green taxi with only banned items is turned away and keeps its list. For other types an empty answer empties the list. |
| DriverAssist.ReplacedList | src/components/DriverAssistPanel.tsx:61-76 | The new list is built from the first three valid items, in server order. Green taxis never get a banned zone, and other types get the server's first items. Priorities follow position, and none gets the gray colour. |
| DriverAssist.UnderscoreLabelsFallBack | src/components/DriverAssistPanel.tsx:91-98 | A suggestion labelled `Very_High` or `Very_Low` shows the gray demand colour and scores the default 3. |
| DriverAssist.TypedLocationBanned | src/components/DriverAssistPanel.tsx:38-39 | A location typed as a zone number's decimal text is checked against the banned list as that number. |
| DriverAssist.RequestPassesValidation | src/components/DriverAssistPanel.tsx:44-46 | Every request the panel sends carries all four parameters `/suggestions` checks. |
| Prediction.LevelDisplay | src/components/PredictionPanel.tsx:44-53 | Each server label maps to the matching entry of the level table, and anything else maps to Medium, bg-yellow-400, 50. The percentage is always one of 10, 25, 50, 75, 90. |
| Prediction.Generate | src/components/PredictionPanel.tsx:32-68 | Nothing exactly when a field is empty. A failure exactly when the answer is `None`. "No data" exactly when the list is empty or its first row has no level. Otherwise the prediction carries the location, the time text and the first row's mapped display. |
| Prediction.Push | src/components/PredictionPanel.tsx:63 | The new entry, then the first at most four previous entries in their order; never more than five. |
| Prediction.NextKeepsInvariant | src/components/PredictionPanel.tsx:55-63 | One click keeps both parts of the invariant: at most five entries, and only table percentages. |
| Prediction.RunKeepsInvariant | src/components/PredictionPanel.tsx:55-63 | Any series of clicks keeps the history invariant. |
| Prediction.FromEmptyHistory | src/components/PredictionPanel.tsx:22 | From the initial empty history, no series of clicks gives more than five entries. |
| Prediction.UnchangedHistory | src/components/PredictionPanel.tsx:33-42 | An empty field does nothing and sends nothing. An empty answer, a first row without a level, or a failure leaves the history unchanged. |
| Prediction.FirstRowOnly | src/components/PredictionPanel.tsx:52 | Rows after the first do not affect the outcome. |
| Prediction.AddedPrediction | src/components/PredictionPanel.tsx:55-63 | A successful click stores the mapped prediction first, followed by the first at most four old entries. |
| Prediction.RequestPassesValidation | src/components/PredictionPanel.tsx:36 | Every request the panel sends passes `/predict`'s parameter check. |
| ZoneEnrich.ColumnIndex | zone.py:41 | A column name is found exactly when some column carries it, and the position returned carries it. |
| ZoneEnrich.IndexOfName | zone.py:48-49 | With distinct names, a name is found at the column that carries it. |
| ZoneEnrich.Address | zone.py:41 | The address is 17 characters longer than the zone and the borough together (", ", ", New York City"). |
| ZoneEnrich.AddressParts | zone.py:41 | The address is the zone, ", ", the borough and ", New York City", in that order, so both parts can be read back. |
| ZoneEnrich.Lookup | zone.py:26-34 | No value exactly when the call raises. Otherwise the result is the first place's latitude and longitude, or a pair of nulls for an empty answer. Both coordinates are present or both are absent. |
| ZoneEnrich.AppendColumn | zone.py:48-49 | A column with a new name added at the end keeps the names distinct and is found at the end. |
| ZoneEnrich.ReplaceColumn | zone.py:48-49 | A column put in place of the one with the same name keeps names distinct and is found there. Every other column stays and none appears. |
| ZoneEnrich.WithColumn | zone.py:48-49 | After `df[name] = cells` the frame is well formed with the same height. The name holds exactly the new cells, other columns stay and no new one appears, and a new name goes at the end. |
| ZoneEnrich.EnrichedColumns | zone.py:48-52 | The written table has the same rows. Every original column other than latitude and longitude passes through, and no other column appears. |
| ZoneEnrich.EnrichedAppends | zone.py:48-49 | A table without coordinate columns keeps its columns in order and gains latitude and then longitude at the end. |
| ZoneEnrich.EnrichedCells | zone.py:40-49 | Row r of the written latitude and longitude columns is the lookup of row r's address. |
| ZoneEnrich.Enriched | zone.py:37-49 | The enriched table is well formed and has the same number of rows. |
| ZoneEnrich.TwoZonesEnrichable | zone.py:41 | The two-zone table has text Zone and Borough columns. |
| ZoneEnrich.TwoZonesAddresses | zone.py:41 | Its rows' addresses are "Newark Airport, EWR, New York City" and "Jamaica Bay, Queens, New York City". |
| ZoneEnrich.TwoZonesCells | zone.py:37-45 | With a service that finds only Newark Airport, the collected latitudes and longitudes are its coordinates, then nulls. |
| ZoneEnrich.NewarkAndJamaicaBay | zone.py:37-52 | The written table is the two rows in order. Newark Airport has (40.6895, -74.1745); Jamaica Bay has null latitude and longitude. |
| ZoneEnrich.CollectCoordinates | zone.py:37-46 | The loop collects one latitude and one longitude per row, each the lookup of that row's address in row order, with one pause per row. A raising lookup stops it at that row, after one pause per earlier row. |
| ZoneEnrich.CollectedCells | zone.py:44-49 | The collected lists become exactly the cells of the written columns. |
| ZoneEnrich.AssignedColumns | zone.py:48-49 | Assigning the two collected lists gives the enriched table. |
| ZoneEnrich.DataFrame.Read | zone.py:13 | The frame read holds the table. |
| ZoneEnrich.DataFrame.Assign | zone.py:48-49 | Assigning a list as a column changes the frame in place to `WithColumn` of the old frame. |
| ZoneEnrich.EnrichFrame | zone.py:13-49 | A frame comes back exactly when no lookup raises, and it is the enriched table. Otherwise the row that raised is returned. |
| ZoneEnrich.EnrichZoneTable | zone.py:12-53 | The store changes only when the table exists and no lookup raises, and then only that table is replaced by the enriched one. A missing table or a raising lookup leaves the store as it was. |

## Left out

- The haversine formula (server.js:79-89) is floating-point trigonometry. The distance is a function parameter, and scores use exact reals rather than IEEE doubles.
- `direction_url`, the `reason` text, `toFixed(4)` and the " km" suffix are string formatting of floating-point numbers. A suggestion keeps the distance as a number.
- Express routing, CORS, JSON encoding, `console` output, `alert` and `fetch` are left out. The endpoint answers are inputs, and a failed fetch or unreadable body is `None`.
- SQL text is not modelled. The database is a zone table and a map of prediction tables. The integer columns compare through `MatchesInteger`, the text columns by equality.
  - A missing `<type>_pred` table is the only query failure modelled. It gives 500.
  - Other database errors are left out.
  - The left join keeps the zone table's order. SQLite does not promise this order, and the proved properties do not depend on it.
- Js.ParseDecimal: reads only plain decimal digit strings. `Number(" 7")`, signs, exponents, fractions and SQLite's other conversions of a text parameter are treated as not matching, so those spellings never match a zone or the banned list.
- JavaScript property lookups with inherited keys (such as `levelScore["toString"]`) are not modelled. Labels are looked up only among the listed keys.
- A `/predict` body that is a non-array JSON object, a number or `true` is covered only as a failure (`None`), since reading `data[0].predicted_level` of it throws.
- A prediction row whose `hour` was stored as NULL, because the CSV value did not parse, is left out: every modelled row has an integer hour.
- The real duration of `time.sleep` is left out; the model counts pauses instead. The printed progress line, the HTTP request and its parameters, and the parsing of coordinate strings as floats are also left out: a place carries numbers.
- ZoneEnrich.EnrichZoneTable, ZoneEnrich.CollectCoordinates, ZoneEnrich.EnrichFrame: require the `Zone` and `Borough` columns to exist and hold text in every row. Once the table has a row, the script raises on a missing column and prints a null cell as text; neither is modelled. A table with no rows and without those columns is excluded as well, although the script would write it back with empty `latitude` and `longitude` columns.
- A JSON answer that is an object rather than a list is left out of `Lookup`. An empty object is falsy and would give nulls, and a non-empty one would raise.
- The panels' JSX rendering, `getDemandIcon`, the page layout (src/pages/Index.tsx) and the CSV import script (import-csv-to-sqlite.js) are not part of this model.

=== FILE: driver_assist.dfy ===
/** The driver-assist panel's "generate suggestions" action as a transition of its
    `suggestions` list, and the panel's two colour lookups. The answer of the suggestions
    endpoint is a given input: None when the handler throws (the request or the reading of
    its body fails, or the body is the endpoint's error object, which has no `filter`). */
module DriverAssist {
  import opened Js
  import Ranking
  import Server

  /** Zones where green taxis may not operate. */
  const BannedGreenZones: seq<int> :=
    [1, 2, 5, 6, 44, 58, 59, 84, 99, 103, 109, 110, 115, 172, 176, 187, 199, 201, 245, 251]

  /** The labels of the panel's `demandScores` table, from lowest to highest demand. */
  const ClientLevels: seq<string> := ["Very Low", "Low", "Medium", "High", "Very High"]

  const GrayPriority := "border-l-gray-500 bg-gray-50"
  const GrayDemand := "bg-gray-500"

  /** The panel's form fields. */
  datatype Form = Form(currentLocation: string, day: string, date: string, hour: string, taxiType: string)

  /** One element of the endpoint's JSON array, as far as the panel reads it. */
  datatype Item = Item(locationId: int, zone: string, distance: real, predictedLevel: Option<string>)

  /** A stored suggestion. `distance` is the number that the panel prints with four decimals. */
  datatype Suggestion = Suggestion(
    targetLocation: string,
    estimatedDemand: string,
    distance: real,
    kind: string,
    priority: string)

  datatype Rejection = BannedOrigin | NoValidSuggestion

  /** What one click does: nothing (a field is empty), an alert that leaves the list as it
      is, a failure caught and logged, or a new list. */
  datatype Outcome = Ignored | Rejected(reason: Rejection) | Failed | Replaced(suggestions: seq<Suggestion>)

  predicate FieldsFilled(f: Form)
  {
    f.currentLocation != "" && f.day != "" && f.date != "" && f.hour != "" && f.taxiType != ""
  }

  predicate Banned(id: int)
  {
    id in BannedGreenZones
  }

  /** `taxiType === 'green' && bannedGreenZones.includes(Number(currentLocation))`. */
  predicate OriginBanned(f: Form)
  {
    var n := ParseDecimal(f.currentLocation);
    f.taxiType == "green" && n.Some? && Banned(n.value)
  }

  /** The request the action sends, if it sends one. */
  function Request(f: Form): Option<Server.Query>
  {
    if FieldsFilled(f) && !OriginBanned(f) then
      Some(Server.Query(Some(f.taxiType), Some(f.hour), Some(f.date), Some(f.currentLocation)))
    else None
  }

  /** `data.filter(...)`: for green taxis the items whose zone is not banned, for every
      other type all items, in server order. */
  function ValidItems(taxiType: string, items: seq<Item>): (valid: seq<Item>)
    ensures |valid| <= |items|
    ensures taxiType != "green" ==> valid == items
    ensures taxiType == "green" && (forall x :: x in items ==> Banned(x.locationId)) ==> valid == []
    ensures forall x :: x in valid <==> x in items && (taxiType == "green" ==> !Banned(x.locationId))
    ensures |items| == 1 ==> valid == if taxiType == "green" && Banned(items[0].locationId) then [] else items
  {
    if items == [] then []
    else
      var rest := ValidItems(taxiType, items[1..]);
      assert forall x :: x in items <==> x == items[0] || x in items[1..];
      if taxiType == "green" && Banned(items[0].locationId) then rest else [items[0]] + rest
  }

  /** The filter works item by item: filtering a concatenation filters each part. With the
      one-item case of `ValidItems`, this pins the result down as the order-preserving
      filter of the items. */
  lemma {:induction false} ValidItemsAppend(taxiType: string, a: seq<Item>, b: seq<Item>)
    ensures ValidItems(taxiType, a + b) == ValidItems(taxiType, a) + ValidItems(taxiType, b)
  {
    if a == [] {
      assert a + b == b;
    } else {
      assert (a + b)[0] == a[0];
      assert (a + b)[1..] == a[1..] + b;
      ValidItemsAppend(taxiType, a[1..], b);
    }
  }

  /** `demandScores[demand] || 3`: computed by the panel but not stored in a suggestion. */
  function DemandScore(demand: string): (v: int)
    ensures 1 <= v <= 5
    ensures forall i :: 0 <= i < |ClientLevels| && ClientLevels[i] == demand ==> v == i + 1
    ensures demand !in ClientLevels ==> v == 3
  {
    if demand == "Very Low" then 1
    else if demand == "Low" then 2
    else if demand == "Medium" then 3
    else if demand == "High" then 4
    else if demand == "Very High" then 5
    else 3
  }

  function Priority(index: nat): string
  {
    if index == 0 then "high" else if index == 1 then "medium" else "low"
  }

  function Kind(distance: real): string
  {
    if distance == 0.0 then "stay" else "move"
  }

  /** The `topValid.map` step for the item at position `index`. */
  function ToSuggestion(item: Item, index: nat): (s: Suggestion)
    ensures s.priority == "high" <==> index == 0
    ensures s.priority == "medium" <==> index == 1
    ensures s.priority == "low" <==> index >= 2
    ensures s.kind == "stay" <==> item.distance == 0.0
    ensures s.kind != "stay" ==> s.kind == "move"
    ensures s.estimatedDemand == if Truthy(item.predictedLevel) then item.predictedLevel.value else "Medium"
    ensures s.distance == item.distance
  {
    var demand := OrElse(item.predictedLevel, "Medium");
    Suggestion(item.zone + " (ID " + IntText(item.locationId) + ")", demand, item.distance,
               Kind(item.distance), Priority(index))
  }

  function MapSuggestions(items: seq<Item>): (s: seq<Suggestion>)
    ensures |s| == |items|
  {
    seq(|items|, i requires 0 <= i < |items| => ToSuggestion(items[i], i))
  }

  /** `generateSuggestions`, given the endpoint's answer. */
  function Generate(f: Form, answer: Option<seq<Item>>): (o: Outcome)
    ensures o == Ignored <==> !FieldsFilled(f)
    ensures o == Rejected(BannedOrigin) <==> FieldsFilled(f) && OriginBanned(f)
    ensures o == Failed <==> Request(f).Some? && answer.None?
    ensures o == Rejected(NoValidSuggestion)
      <==> Request(f).Some? && answer.Some? && f.taxiType == "green" && ValidItems(f.taxiType, answer.value) == []
    ensures o.Replaced?
      <==> Request(f).Some? && answer.Some? && !(f.taxiType == "green" && ValidItems(f.taxiType, answer.value) == [])
  {
    if !FieldsFilled(f) then Ignored
    else if OriginBanned(f) then Rejected(BannedOrigin)
    else match answer
      case None => Failed
      case Some(items) =>
        var valid := ValidItems(f.taxiType, items);
        if f.taxiType == "green" && |valid| == 0 then Rejected(NoValidSuggestion)
        else Replaced(Ranking.TopThree(MapSuggestions(Ranking.TopThree(valid))))
  }

  /** The `suggestions` state after an outcome: only a new list replaces it. */
  function Next(suggestions: seq<Suggestion>, o: Outcome): seq<Suggestion>
  {
    if o.Replaced? then o.suggestions else suggestions
  }

  /** `getPriorityColor`: total, with the gray default for every other string. */
  function PriorityColor(priority: string): (c: string)
    ensures priority !in {"high", "medium", "low"} <==> c == GrayPriority
  {
    if priority == "high" then "border-l-red-500 bg-red-50"
    else if priority == "medium" then "border-l-yellow-500 bg-yellow-50"
    else if priority == "low" then "border-l-green-500 bg-green-50"
    else GrayPriority
  }

  /** `getDemandColor`: total, with the gray default for every other string, "Very Low"
      included. */
  function DemandColor(demand: string): (c: string)
    ensures demand !in {"Very High", "High", "Medium", "Low"} <==> c == GrayDemand
  {
    if demand == "Very High" then "bg-red-500"
    else if demand == "High" then "bg-orange-500"
    else if demand == "Medium" then "bg-yellow-500"
    else if demand == "Low" then "bg-blue-500"
    else GrayDemand
  }

  /** With a field empty nothing happens; a green taxi at a banned zone is turned away
      before any request. Either way the list is unchanged and the endpoint's answer,
      never requested, plays no part. */
  lemma NoRequestNoChange(f: Form, answer: Option<seq<Item>>, other: Option<seq<Item>>, current: seq<Suggestion>)
    requires Request(f).None?
    ensures Generate(f, answer) == (if FieldsFilled(f) then Rejected(BannedOrigin) else Ignored)
    ensures Generate(f, answer) == Generate(f, other)
    ensures Next(current, Generate(f, answer)) == current
  {
  }

  /** A failed request, an unreadable body or an error body leaves the list unchanged. */
  lemma FailureKeepsList(f: Form, current: seq<Suggestion>)
    ensures Next(current, Generate(f, None)) == current
  {
  }

  /** A green taxi left with no valid item is turned away and keeps its list; for the
      other types an empty answer empties the list. */
  lemma EmptyChoices(f: Form, items: seq<Item>, current: seq<Suggestion>)
    requires FieldsFilled(f) && !OriginBanned(f)
    ensures f.taxiType == "green" && (forall x :: x in items ==> Banned(x.locationId))
      ==> Generate(f, Some(items)) == Rejected(NoValidSuggestion) && Next(current, Generate(f, Some(items))) == current
    ensures f.taxiType != "green" && items == [] ==> Next(current, Generate(f, Some(items))) == []
  {
  }

  /** The new list: at most three suggestions made from the first three valid items in
      server order, never a banned zone for a green taxi, every item kept for the other
      types, priority by position and stay exactly at distance 0. */
  lemma ReplacedList(f: Form, items: seq<Item>)
    requires Generate(f, Some(items)).Replaced?
    ensures var s := Generate(f, Some(items)).suggestions;
      var chosen := Ranking.TopThree(ValidItems(f.taxiType, items));
      && |s| == |chosen| <= 3
      && chosen == ValidItems(f.taxiType, items)[..|chosen|]
      && (f.taxiType != "green" ==> chosen == items[..|chosen|])
      && (f.taxiType == "green" ==> forall i :: 0 <= i < |chosen| ==> !Banned(chosen[i].locationId))
      && (forall i :: 0 <= i < |s| ==> s[i] == ToSuggestion(chosen[i], i))
      && (forall i :: 0 <= i < |s| ==> PriorityColor(s[i].priority) != GrayPriority)
  {
    var chosen := Ranking.TopThree(ValidItems(f.taxiType, items));
    forall i | 0 <= i < |chosen| ensures f.taxiType == "green" ==> !Banned(chosen[i].locationId) {
      assert chosen[i] in ValidItems(f.taxiType, items);
    }
  }

  /** The server sends "Very_High" and "Very_Low" with underscores while the panel's tables
      use spaces: those suggestions show the gray demand colour and score the default 3. */
  lemma UnderscoreLabelsFallBack(item: Item, index: nat)
    requires item.predictedLevel == Some("Very_High") || item.predictedLevel == Some("Very_Low")
    ensures DemandColor(ToSuggestion(item, index).estimatedDemand) == GrayDemand
    ensures DemandScore(ToSuggestion(item, index).estimatedDemand) == 3
  {
  }

  /** A location typed as the decimal text of a zone number is checked against the banned
      list as that number. */
  lemma TypedLocationBanned(f: Form, id: nat)
    requires f.currentLocation == NatText(id)
    ensures OriginBanned(f) <==> f.taxiType == "green" && Banned(id)
  {
    ParseNatText(id);
  }

  /** A request the panel sends always passes the endpoint's parameter check. */
  lemma RequestPassesValidation(f: Form)
    requires Request(f).Some?
    ensures Server.SuggestionsParamsPresent(Request(f).value)
  {
  }
}

=== FILE: js.dfy ===
/** Values as the JavaScript and SQL glue of the system sees them: strings that may be
    undefined or null, the truthiness test `!x`, and whole numbers written in decimal. */
module Js {

  datatype Option<+T> = None | Some(value: T)

  /** A latitude or longitude column: a number, or null when geocoding found nothing. */
  type Coordinate = Option<real>

  /** `!!x` for a string that may be undefined or null: only a non-empty string is truthy. */
  predicate Truthy(x: Option<string>)
  {
    x.Some? && x.value != ""
  }

  /** `x || fallback` for a string that may be undefined or null. */
  function OrElse(x: Option<string>, fallback: string): string
  {
    if Truthy(x) then x.value else fallback
  }

  predicate IsDigit(c: char)
  {
    '0' <= c <= '9'
  }

  predicate AllDigits(s: string)
  {
    forall i :: 0 <= i < |s| ==> IsDigit(s[i])
  }

  function DigitChar(d: nat): char
    requires d < 10
  {
    ('0' as int + d) as char
  }

  function DigitValue(c: char): nat
    requires IsDigit(c)
  {
    c as int - '0' as int
  }

  /** The decimal text of a whole number, without leading zeros, as template literals print it. */
  function NatText(n: nat): (s: string)
    ensures |s| > 0 && AllDigits(s)
  {
    if n < 10 then [DigitChar(n)] else NatText(n / 10) + [DigitChar(n % 10)]
  }

  function IntText(i: int): string
  {
    if i < 0 then "-" + NatText(-i) else NatText(i)
  }

  /** The value of a string of decimal digits, read left to right. */
  function DigitsValue(s: string): nat
    requires AllDigits(s)
  {
    if s == [] then 0 else 10 * DigitsValue(s[..|s| - 1]) + DigitValue(s[|s| - 1])
  }

  /** The whole number a plain decimal string denotes, as both `Number(s)` and SQLite's
      integer affinity read it; None for every other string. */
  function ParseDecimal(s: string): (r: Option<nat>)
    ensures r.Some? <==> |s| > 0 && AllDigits(s)
  {
    if |s| > 0 && AllDigits(s) then Some(DigitsValue(s)) else None
  }

  /** Reading back the decimal text of a whole number gives that number. */
  lemma {:induction false} ParseNatText(n: nat)
    ensures ParseDecimal(NatText(n)) == Some(n)
  {
    var s := NatText(n);
    if n < 10 {
      assert s[..|s| - 1] == [] && DigitsValue([]) == 0;
      assert DigitValue(s[0]) == n;
      assert DigitsValue(s) == n;
    } else {
      ParseNatText(n / 10);
      assert s[..|s| - 1] == NatText(n / 10);
      assert DigitValue(s[|s| - 1]) == n % 10;
    }
  }

  /** `n.toString().padStart(2, '0')`: the text of an hour option of both panels' selects. */
  function PadStartTwo(n: nat): (s: string)
    ensures |s| >= 2 && AllDigits(s)
  {
    if n < 10 then "0" + NatText(n) else NatText(n)
  }

  /** A zero-padded whole number still reads as that number, so the hour "07" selects 7. */
  lemma ParsePadStartTwo(n: nat)
    ensures ParseDecimal(PadStartTwo(n)) == Some(n)
  {
    var s := PadStartTwo(n);
    ParseNatText(n);
    if n < 10 {
      assert s == ['0', DigitChar(n)];
      assert s[..|s| - 1] == ['0'];
      assert ['0'][..0] == [];
      assert DigitsValue(['0']) == 0;
    }
  }
}

=== FILE: prediction.dfy ===
/** The prediction panel's "predict" action as a transition of its `predictions` history:
    the server's label is mapped to a display level, colour and percentage, and the new
    prediction goes in front of a history capped at five entries. The answer of the predict
    endpoint is a given input: None when the handler throws (the request or the reading of
    its body fails, or the body is the endpoint's error object); a `null` body is the empty
    list. */
module Prediction {
  import opened Js
  import Ranking
  import Server

  /** The panel's form fields; the taxi type starts as "yellow". */
  datatype Form = Form(location: string, day: string, date: string, hour: string, taxiType: string)

  /** One row of the endpoint's JSON array. */
  datatype Row = Row(predictedLevel: Option<string>)

  /** How a demand level is shown. */
  datatype Display = Display(level: string, color: string, percentage: int)

  /** A stored prediction. */
  datatype PredictionData = PredictionData(
    location: string,
    time: string,
    demand: string,
    percentage: int,
    color: string)

  /** What one click does: nothing (a field is empty), a "no data" alert, an error caught
      and reported, or a new prediction. */
  datatype Outcome = Ignored | NoData | Failed | Added(prediction: PredictionData)

  /** The panel's `demandLevels` table, from lowest to highest demand. */
  const DemandLevels: seq<Display> := [
    Display("Very Low", "bg-gray-400", 10),
    Display("Low", "bg-blue-400", 25),
    Display("Medium", "bg-yellow-400", 50),
    Display("High", "bg-orange-400", 75),
    Display("Very High", "bg-red-400", 90)]

  const HistoryLimit := 5

  /** `levelMap[predicted] || levelMap['Medium']`: the server's five labels show as the
      matching entry of the panel's level table, anything else as Medium. */
  function LevelDisplay(serverLabel: string): (d: Display)
    ensures d in DemandLevels
    ensures d.percentage in {10, 25, 50, 75, 90}
    ensures forall i :: 0 <= i < |Ranking.ServerLevels| && Ranking.ServerLevels[i] == serverLabel ==> d == DemandLevels[i]
    ensures serverLabel !in Ranking.ServerLevels ==> d == Display("Medium", "bg-yellow-400", 50)
  {
    if serverLabel == "Very_Low" then Display("Very Low", "bg-gray-400", 10)
    else if serverLabel == "Low" then Display("Low", "bg-blue-400", 25)
    else if serverLabel == "Medium" then Display("Medium", "bg-yellow-400", 50)
    else if serverLabel == "High" then Display("High", "bg-orange-400", 75)
    else if serverLabel == "Very_High" then Display("Very High", "bg-red-400", 90)
    else Display("Medium", "bg-yellow-400", 50)
  }

  /** `${day}, ${date} lúc ${hour}:00`. */
  function TimeText(f: Form): string
  {
    f.day + ", " + f.date + " l\U{00FA}c " + f.hour + ":00"
  }

  predicate FieldsFilled(f: Form)
  {
    f.location != "" && f.date != "" && f.hour != ""
  }

  /** The request the action sends, if it sends one. */
  function Request(f: Form): Option<Server.Query>
  {
    if FieldsFilled(f) then
      Some(Server.Query(Some(f.taxiType), Some(f.hour), Some(f.date), Some(f.location)))
    else None
  }

  /** `generatePrediction`, given the endpoint's answer: only the first row is read. */
  function Generate(f: Form, answer: Option<seq<Row>>): (o: Outcome)
    ensures o == Ignored <==> !FieldsFilled(f)
    ensures o == Failed <==> FieldsFilled(f) && answer.None?
    ensures o == NoData
      <==> FieldsFilled(f) && answer.Some? && (|answer.value| == 0 || !Truthy(answer.value[0].predictedLevel))
    ensures o.Added? ==>
      && answer.Some? && |answer.value| > 0 && Truthy(answer.value[0].predictedLevel)
      && o.prediction.location == f.location && o.prediction.time == TimeText(f)
      && Display(o.prediction.demand, o.prediction.color, o.prediction.percentage)
         == LevelDisplay(answer.value[0].predictedLevel.value)
  {
    if !FieldsFilled(f) then Ignored
    else match answer
      case None => Failed
      case Some(rows) =>
        if |rows| == 0 || !Truthy(rows[0].predictedLevel) then NoData
        else
          var shown := LevelDisplay(rows[0].predictedLevel.value);
          Added(PredictionData(f.location, TimeText(f), shown.level, shown.percentage, shown.color))
  }

  /** `[newPrediction, ...prev.slice(0, 4)]`: the new entry, then the first at most four
      previous entries in their order. */
  function Push(history: seq<PredictionData>, p: PredictionData): (h: seq<PredictionData>)
    ensures |h| <= HistoryLimit
    ensures |h| == if |history| < HistoryLimit then |history| + 1 else HistoryLimit
    ensures h[0] == p
    ensures h[1..] == history[..|h| - 1]
  {
    [p] + (if |history| <= 4 then history else history[..4])
  }

  /** The `predictions` state after an outcome: only a new prediction changes it. */
  function Next(history: seq<PredictionData>, o: Outcome): seq<PredictionData>
  {
    if o.Added? then Push(history, o.prediction) else history
  }

  /** One click: the form at that moment and what the endpoint answered. */
  datatype Click = Click(form: Form, answer: Option<seq<Row>>)

  /** The history after a series of clicks. */
  function Run(history: seq<PredictionData>, clicks: seq<Click>): seq<PredictionData>
    decreases |clicks|
  {
    if clicks == [] then history
    else Run(Next(history, Generate(clicks[0].form, clicks[0].answer)), clicks[1..])
  }

  /** What every reachable history satisfies: at most five entries, each with one of the
      five percentages of the level table. */
  predicate HistoryInvariant(history: seq<PredictionData>)
  {
    |history| <= HistoryLimit
    && forall i :: 0 <= i < |history| ==> history[i].percentage in {10, 25, 50, 75, 90}
  }

  /** One click keeps the history invariant. */
  lemma NextKeepsInvariant(history: seq<PredictionData>, f: Form, answer: Option<seq<Row>>)
    requires HistoryInvariant(history)
    ensures HistoryInvariant(Next(history, Generate(f, answer)))
  {
    var o := Generate(f, answer);
    if o.Added? {
      var h := Next(history, o);
      forall i | 0 <= i < |h| ensures h[i].percentage in {10, 25, 50, 75, 90} {
        if i > 0 {
          assert h[i] == history[i - 1];
        }
      }
    }
  }

  /** Starting from the empty history, no series of clicks leads to more than five
      entries or to a percentage outside the level table. */
  lemma {:induction false} RunKeepsInvariant(history: seq<PredictionData>, clicks: seq<Click>)
    requires HistoryInvariant(history)
    ensures HistoryInvariant(Run(history, clicks))
    decreases |clicks|
  {
    if clicks != [] {
      NextKeepsInvariant(history, clicks[0].form, clicks[0].answer);
      RunKeepsInvariant(Next(history, Generate(clicks[0].form, clicks[0].answer)), clicks[1..]);
    }
  }

  lemma FromEmptyHistory(clicks: seq<Click>)
    ensures |Run([], clicks)| <= HistoryLimit
  {
    RunKeepsInvariant([], clicks);
  }

  /** An empty field does nothing; an empty answer, a first row without a level, or an
      error leaves the history unchanged. */
  lemma UnchangedHistory(f: Form, answer: Option<seq<Row>>, history: seq<PredictionData>)
    requires !FieldsFilled(f) || answer.None? || |answer.value| == 0 || !Truthy(answer.value[0].predictedLevel)
    ensures Next(history, Generate(f, answer)) == history
    ensures !FieldsFilled(f) ==> Generate(f, answer) == Ignored && Request(f).None?
  {
  }

  /** Only the first row of the answer is read. */
  lemma FirstRowOnly(f: Form, first: Row, rest: seq<Row>, other: seq<Row>)
    ensures Generate(f, Some([first] + rest)) == Generate(f, Some([first] + other))
  {
  }

  /** A successful click puts the mapped prediction in front of the first at most four
      previous entries. */
  lemma AddedPrediction(f: Form, rows: seq<Row>, history: seq<PredictionData>)
    requires FieldsFilled(f) && |rows| > 0 && Truthy(rows[0].predictedLevel)
    ensures var shown := LevelDisplay(rows[0].predictedLevel.value);
      var h := Next(history, Generate(f, Some(rows)));
      && h[0] == PredictionData(f.location, TimeText(f), shown.level, shown.percentage, shown.color)
      && h[1..] == history[..if |history| < 4 then |history| else 4]
  {
  }

  /** A request the panel sends always passes the predict endpoint's parameter check. */
  lemma RequestPassesValidation(f: Form, db: Server.Db)
    requires Request(f).Some?
    ensures !Server.Predict(Request(f).value, db).Fail? || !Server.Predict(Request(f).value, db).error.BadRequest?
  {
  }
}

=== FILE: ranking.dfy ===
/** The scoring and ranking rule of the suggestions endpoint: each candidate zone gets a
    demand score from its predicted level and a closeness score from its distance to the
    origin, weighted half and half; the candidates are then sorted by score, highest
    first, and the first three are kept. */
module Ranking {
  import opened Js

  /** A candidate zone after the `zones.map` step. `score` is the property that the
      scoring pass attaches later; until then it holds 0.0. */
  datatype Ranked = Ranked(
    locationId: int,
    zone: string,
    distance: real,
    level: string,
    predictedValue: int,
    latitude: Coordinate,
    longitude: Coordinate,
    score: real)

  /** The labels of the server's `levelScore` table, from lowest to highest demand. */
  const ServerLevels: seq<string> := ["Very_Low", "Low", "Medium", "High", "Very_High"]

  /** `predicted_level || "Medium"`: an absent, null or empty prediction reads as "Medium". */
  function DemandLevel(predicted: Option<string>): (level: string)
    ensures level != ""
    ensures Truthy(predicted) ==> level == predicted.value
    ensures !Truthy(predicted) ==> level == "Medium"
  {
    OrElse(predicted, "Medium")
  }

  /** `levelScore[level] || 3`: a known label scores its rank 1..5, anything else scores 3. */
  function LevelScore(level: string): (v: int)
    ensures 1 <= v <= 5
    ensures forall i :: 0 <= i < |ServerLevels| && ServerLevels[i] == level ==> v == i + 1
    ensures level !in ServerLevels ==> v == 3
  {
    if level == "Very_Low" then 1
    else if level == "Low" then 2
    else if level == "Medium" then 3
    else if level == "High" then 4
    else if level == "Very_High" then 5
    else 3
  }

  /** `r.distance || 0.001`: a zero distance counts as 0.001. */
  function Guarded(d: real): real
  {
    if d == 0.0 then 0.001 else d
  }

  function Max(x: real, y: real): real
  {
    if x >= y then x else y
  }

  /** `Math.max(...rs.map(r => r.distance || 0.001))` for a non-empty list of candidates:
      at least every distance, one of the guarded distances, so never zero, and positive
      as soon as one distance is not negative. */
  function MaxDistance(rs: seq<Ranked>): (m: real)
    requires |rs| > 0
    ensures forall i :: 0 <= i < |rs| ==> rs[i].distance <= m
    ensures exists i :: 0 <= i < |rs| && m == Guarded(rs[i].distance)
    ensures m != 0.0
    ensures (exists i :: 0 <= i < |rs| && rs[i].distance >= 0.0) ==> m > 0.0
  {
    if |rs| == 1 then Guarded(rs[0].distance)
    else
      var rest := MaxDistance(rs[1..]);
      assert forall i :: 1 <= i < |rs| ==> rs[i] == rs[1..][i - 1];
      Max(Guarded(rs[0].distance), rest)
  }

  /** `(predictedValue - 1) / 4`. */
  function DemandScore(predictedValue: int): real
  {
    (predictedValue - 1) as real / 4.0
  }

  /** `1 - distance / maxDistance`. */
  function DistanceScore(distance: real, maxDistance: real): real
    requires maxDistance != 0.0
  {
    1.0 - distance / maxDistance
  }

  /** `0.5 * demandScore + 0.5 * distanceScore`. */
  function Score(r: Ranked, maxDistance: real): (score: real)
    requires maxDistance != 0.0
    ensures 1 <= r.predictedValue <= 5 && 0.0 <= r.distance <= maxDistance ==> 0.0 <= score <= 1.0
  {
    assert 0.0 <= r.distance <= maxDistance ==> 0.0 <= r.distance / maxDistance <= 1.0 by {
      if 0.0 <= r.distance <= maxDistance {
        assert maxDistance > 0.0;
        assert r.distance / maxDistance <= 1.0 by {
          assert r.distance <= maxDistance;
        }
      }
    }
    0.5 * DemandScore(r.predictedValue) + 0.5 * DistanceScore(r.distance, maxDistance)
  }

  /** For a predicted value in 1..5 and a distance between 0 and the maximum, the demand
      score, the closeness score and the combined score all lie in [0, 1]. */
  lemma ScoreBounds(r: Ranked, maxDistance: real)
    requires 1 <= r.predictedValue <= 5
    requires 0.0 <= r.distance <= maxDistance && maxDistance > 0.0
    ensures 0.0 <= DemandScore(r.predictedValue) <= 1.0
    ensures 0.0 <= DistanceScore(r.distance, maxDistance) <= 1.0
    ensures 0.0 <= Score(r, maxDistance) <= 1.0
  {
    assert r.distance / maxDistance <= 1.0 by {
      assert r.distance <= maxDistance;
    }
  }

  /** At equal demand the closer zone never scores lower; at equal distance the zone with
      the higher predicted value never scores lower. */
  lemma ScoreMonotone(a: Ranked, b: Ranked, maxDistance: real)
    requires maxDistance > 0.0
    ensures a.predictedValue == b.predictedValue && a.distance <= b.distance
      ==> Score(a, maxDistance) >= Score(b, maxDistance)
    ensures a.distance == b.distance && a.predictedValue >= b.predictedValue
      ==> Score(a, maxDistance) >= Score(b, maxDistance)
  {
    if a.distance <= b.distance {
      assert a.distance / maxDistance <= b.distance / maxDistance by {
        assert a.distance * (1.0 / maxDistance) <= b.distance * (1.0 / maxDistance);
      }
    }
  }

  /** The scoring pass `results.forEach(r => r.score = ...)`, as a value. */
  function ScoreAll(rs: seq<Ranked>, maxDistance: real): (scored: seq<Ranked>)
    requires maxDistance != 0.0
    ensures |scored| == |rs|
    ensures forall i :: 0 <= i < |rs| ==> SameZone(scored[i], rs[i]) && scored[i].score == Score(rs[i], maxDistance)
  {
    seq(|rs|, i requires 0 <= i < |rs| => rs[i].(score := Score(rs[i], maxDistance)))
  }

  /** The candidates with their scores attached against the maximum distance of the list. */
  function Scored(rs: seq<Ranked>): seq<Ranked>
  {
    if |rs| == 0 then [] else ScoreAll(rs, MaxDistance(rs))
  }

  /** Every scored candidate keeps its own fields, and with predicted values in 1..5 and
      non-negative distances its score lies in [0, 1]. */
  lemma ScoredInUnitInterval(rs: seq<Ranked>)
    requires forall i :: 0 <= i < |rs| ==> 1 <= rs[i].predictedValue <= 5 && rs[i].distance >= 0.0
    ensures |Scored(rs)| == |rs|
    ensures forall i :: 0 <= i < |rs| ==> Scored(rs)[i].(score := 0.0) == rs[i].(score := 0.0)
    ensures forall i :: 0 <= i < |rs| ==> 0.0 <= Scored(rs)[i].score <= 1.0
  {
    if |rs| > 0 {
      var m := MaxDistance(rs);
      forall i | 0 <= i < |rs| ensures 0.0 <= Scored(rs)[i].score <= 1.0 {
        ScoreBounds(rs[i], m);
      }
    }
  }

  /** No later element scores higher than an earlier one. */
  predicate SortedDesc(s: seq<Ranked>)
  {
    forall i, j :: 0 <= i < j < |s| ==> s[i].score >= s[j].score
  }

  /** Places `x` after every leading element that scores at least as much as `x`: the
      comparator `b.score - a.score` of a stable sort never moves `x` ahead of an equal. */
  function Insert(s: seq<Ranked>, x: Ranked): (r: seq<Ranked>)
  {
    if s == [] then [x]
    else if s[0].score >= x.score then [s[0]] + Insert(s[1..], x)
    else [x] + s
  }

  /** `results.sort((a, b) => b.score - a.score)`: a stable sort on descending score,
      written as insertion from left to right. */
  function SortDesc(s: seq<Ranked>): (r: seq<Ranked>)
  {
    if s == [] then [] else Insert(SortDesc(s[..|s| - 1]), s[|s| - 1])
  }

  lemma {:induction false} InsertPermutes(s: seq<Ranked>, x: Ranked)
    ensures multiset(Insert(s, x)) == multiset(s) + multiset{x}
  {
    if s == [] {
    } else if s[0].score >= x.score {
      var t := Insert(s[1..], x);
      InsertPermutes(s[1..], x);
      calc {
        multiset(Insert(s, x));
        { assert Insert(s, x) == [s[0]] + t; }
        multiset([s[0]]) + multiset(t);
        multiset([s[0]]) + multiset(s[1..]) + multiset{x};
        { assert s == [s[0]] + s[1..]; }
        multiset(s) + multiset{x};
      }
    } else {
      assert Insert(s, x) == [x] + s;
    }
  }

  /** Every element of `Insert(s, x)` is `x` or an element of `s`. */
  lemma {:induction false} InsertMembers(s: seq<Ranked>, x: Ranked)
    ensures forall k :: 0 <= k < |Insert(s, x)| ==> Insert(s, x)[k] == x || Insert(s, x)[k] in s
  {
    if s != [] && s[0].score >= x.score {
      InsertMembers(s[1..], x);
      var t := Insert(s[1..], x);
      assert Insert(s, x) == [s[0]] + t;
      forall k | 0 < k < |Insert(s, x)| ensures Insert(s, x)[k] == x || Insert(s, x)[k] in s {
        assert Insert(s, x)[k] == t[k - 1];
      }
    }
  }

  lemma {:induction false} InsertKeepsOrder(s: seq<Ranked>, x: Ranked)
    requires SortedDesc(s)
    ensures SortedDesc(Insert(s, x))
    ensures multiset(Insert(s, x)) == multiset(s) + multiset{x}
  {
    InsertPermutes(s, x);
    if s != [] && s[0].score >= x.score {
      var t := Insert(s[1..], x);
      assert SortedDesc(s[1..]);
      InsertKeepsOrder(s[1..], x);
      InsertMembers(s[1..], x);
      assert forall k :: 0 <= k < |t| ==> t[k] == x || t[k] in s[1..];
      assert Insert(s, x) == [s[0]] + t;
    }
  }

  /** The ranking is sorted on descending score and is a permutation of its input. */
  lemma {:induction false} SortDescCorrect(s: seq<Ranked>)
    ensures SortedDesc(SortDesc(s))
    ensures multiset(SortDesc(s)) == multiset(s)
    ensures |SortDesc(s)| == |s|
  {
    if s != [] {
      var init := s[..|s| - 1];
      SortDescCorrect(init);
      InsertKeepsOrder(SortDesc(init), s[|s| - 1]);
      assert s == init + [s[|s| - 1]];
      assert |SortDesc(s)| == |multiset(SortDesc(s))|;
    }
  }

  /** A list that is already in descending order comes out of the sort unchanged: the
      sort never reorders candidates with equal scores. */
  lemma {:induction false} SortDescOfSorted(s: seq<Ranked>)
    requires SortedDesc(s)
    ensures SortDesc(s) == s
  {
    if s != [] {
      var init := s[..|s| - 1];
      assert SortedDesc(init);
      SortDescOfSorted(init);
      InsertAtEnd(init, s[|s| - 1]);
      assert s == init + [s[|s| - 1]];
    }
  }

  /** The entries of `s` that score exactly `v`, in their order in `s`. */
  function WithScore(s: seq<Ranked>, v: real): (t: seq<Ranked>)
    ensures |t| <= |s|
    ensures forall k :: 0 <= k < |t| ==> t[k].score == v
    ensures (forall k :: 0 <= k < |s| ==> s[k].score != v) ==> t == []
  {
    if s == [] then [] else (if s[0].score == v then [s[0]] else []) + WithScore(s[1..], v)
  }

  lemma {:induction false} WithScoreAppend(a: seq<Ranked>, b: seq<Ranked>, v: real)
    ensures WithScore(a + b, v) == WithScore(a, v) + WithScore(b, v)
  {
    if a == [] {
      assert a + b == b;
    } else {
      assert (a + b)[0] == a[0];
      assert (a + b)[1..] == a[1..] + b;
      WithScoreAppend(a[1..], b, v);
    }
  }

  /** Inserting into a descending list puts `x` after every entry of equal score. */
  lemma {:induction false} InsertAfterEquals(s: seq<Ranked>, x: Ranked, v: real)
    requires SortedDesc(s)
    ensures WithScore(Insert(s, x), v) == WithScore(s, v) + (if x.score == v then [x] else [])
  {
    var xPart := if x.score == v then [x] else [];
    if s == [] {
      assert [x][1..] == [];
    } else if s[0].score >= x.score {
      var head := if s[0].score == v then [s[0]] else [];
      var t := Insert(s[1..], x);
      assert Insert(s, x) == [s[0]] + t;
      assert ([s[0]] + t)[1..] == t;
      assert SortedDesc(s[1..]);
      calc {
        WithScore(Insert(s, x), v);
        head + WithScore(t, v);
        { InsertAfterEquals(s[1..], x, v); }
        head + (WithScore(s[1..], v) + xPart);
        WithScore(s, v) + xPart;
      }
    } else {
      assert Insert(s, x) == [x] + s;
      assert ([x] + s)[1..] == s;
      assert forall k :: 0 <= k < |s| ==> s[k].score <= s[0].score;
      assert x.score == v ==> WithScore(s, v) == [];
    }
  }

  /** The sort is stable: the entries of any one score come out in the order they went
      in, for every input. */
  lemma {:induction false} SortDescStable(s: seq<Ranked>, v: real)
    ensures WithScore(SortDesc(s), v) == WithScore(s, v)
  {
    if s != [] {
      var init := s[..|s| - 1];
      var last := s[|s| - 1];
      var lastPart := if last.score == v then [last] else [];
      assert WithScore([last], v) == lastPart by {
        assert [last][1..] == [];
      }
      SortDescCorrect(init);
      calc {
        WithScore(SortDesc(s), v);
        WithScore(Insert(SortDesc(init), last), v);
        { InsertAfterEquals(SortDesc(init), last, v); }
        WithScore(SortDesc(init), v) + lastPart;
        { SortDescStable(init, v); }
        WithScore(init, v) + WithScore([last], v);
        { WithScoreAppend(init, [last], v); }
        WithScore(init + [last], v);
        { assert s == init + [last]; }
        WithScore(s, v);
      }
    }
  }

  lemma {:induction false} InsertAtEnd(s: seq<Ranked>, x: Ranked)
    requires forall k :: 0 <= k < |s| ==> s[k].score >= x.score
    ensures Insert(s, x) == s + [x]
  {
    if s != [] {
      InsertAtEnd(s[1..], x);
    }
  }

  /** Where Insert puts `x` in a descending list: after the prefix of elements scoring at
      least as much, before the suffix of elements scoring less. */
  lemma {:induction false} InsertAt(s: seq<Ranked>, x: Ranked, j: nat)
    requires j <= |s|
    requires forall k :: 0 <= k < j ==> s[k].score >= x.score
    requires forall k :: j <= k < |s| ==> s[k].score < x.score
    ensures |Insert(s, x)| == |s| + 1
    ensures forall k :: 0 <= k < j ==> Insert(s, x)[k] == s[k]
    ensures Insert(s, x)[j] == x
    ensures forall k :: j < k <= |s| ==> Insert(s, x)[k] == s[k - 1]
  {
    if j > 0 {
      InsertAt(s[1..], x, j - 1);
    }
  }

  /** The first three entries of a list, or all of them when there are fewer. */
  function TopThree<T>(s: seq<T>): (top: seq<T>)
    ensures |top| == if |s| < 3 then |s| else 3
    ensures top == s[..|top|]
  {
    if |s| <= 3 then s else s[..3]
  }

  /** The first three entries of a descending list are in order, come from the list,
      and score at least as much as every entry left out. */
  lemma TopOfSorted(s: seq<Ranked>)
    requires SortedDesc(s)
    ensures SortedDesc(TopThree(s))
    ensures multiset(TopThree(s)) <= multiset(s)
    ensures forall k, m :: |TopThree(s)| <= k < |s| && 0 <= m < |TopThree(s)| ==> s[k].score <= TopThree(s)[m].score
  {
    var top := TopThree(s);
    assert s == top + s[|top|..];
    assert multiset(s) == multiset(top) + multiset(s[|top|..]);
  }

  /** Of a descending list, every entry left out of the first three (counted with
      multiplicity) scores no higher than each one kept. */
  lemma LeftOutScoreLower(s: seq<Ranked>)
    requires SortedDesc(s)
    ensures forall c, t :: c in multiset(s) - multiset(TopThree(s)) && t in TopThree(s) ==> t.score >= c.score
  {
    var top := TopThree(s);
    var rest := s[|top|..];
    assert s == top + rest;
    assert multiset(s) - multiset(top) == multiset(rest);
    forall c, t | c in multiset(s) - multiset(top) && t in top ensures t.score >= c.score {
      assert c in rest;
      var k :| 0 <= k < |rest| && rest[k] == c;
      var m :| 0 <= m < |top| && top[m] == t;
      assert s[|top| + k] == c;
    }
  }

  /** The selection rule: at most three entries, as many as there are candidates up to
      three, in non-increasing score order, each one a scored candidate, and every
      candidate left out (counted with multiplicity) scores no higher than each one kept. */
  lemma TopThreeIsBest(rs: seq<Ranked>)
    ensures var top := TopThree(SortDesc(Scored(rs)));
      && |top| == (if |rs| < 3 then |rs| else 3)
      && SortedDesc(top)
      && multiset(top) <= multiset(Scored(rs))
      && forall c, t :: c in multiset(Scored(rs)) - multiset(top) && t in top ==> t.score >= c.score
  {
    var sc := Scored(rs);
    var sorted := SortDesc(sc);
    SortDescCorrect(sc);
    TopOfSorted(sorted);
    LeftOutScoreLower(sorted);
    assert multiset(sc) == multiset(sorted);
    assert |sc| == |rs|;
  }

  /** Two candidates that differ at most in their score. */
  predicate SameZone(a: Ranked, b: Ranked)
  {
    a.(score := 0.0) == b.(score := 0.0)
  }

  /** Every entry of the selection is one of the candidates with its score attached. */
  lemma SelectedFromCandidates(rs: seq<Ranked>, t: Ranked) returns (k: nat)
    requires t in TopThree(SortDesc(Scored(rs)))
    ensures k < |rs| && SameZone(t, rs[k])
  {
    SortDescCorrect(Scored(rs));
    TopOfSorted(SortDesc(Scored(rs)));
    assert t in multiset(Scored(rs));
    k :| 0 <= k < |Scored(rs)| && Scored(rs)[k] == t;
  }

  /** The scoring pass, run in place over the array of candidates. */
  method AssignScores(a: array<Ranked>, maxDistance: real)
    requires maxDistance != 0.0
    modifies a
    ensures a[..] == ScoreAll(old(a[..]), maxDistance)
  {
    var i := 0;
    while i < a.Length
      invariant 0 <= i <= a.Length
      invariant forall k :: 0 <= k < i ==> a[k] == old(a[k]).(score := Score(old(a[k]), maxDistance))
      invariant forall k :: i <= k < a.Length ==> a[k] == old(a[k])
    {
      a[i] := a[i].(score := Score(a[i], maxDistance));
      i := i + 1;
    }
  }

  /** A list laid out as `sorted` with `key` at position `j`, where the elements before
      `j` score at least as much as `key` and those after score less, is Insert's result. */
  lemma InsertedLayout(sorted: seq<Ranked>, key: Ranked, j: nat, b: seq<Ranked>)
    requires SortedDesc(sorted) && j <= |sorted| && |b| == |sorted| + 1
    requires j == 0 || sorted[j - 1].score >= key.score
    requires forall k :: j <= k < |sorted| ==> sorted[k].score < key.score
    requires forall k :: 0 <= k < j ==> b[k] == sorted[k]
    requires b[j] == key
    requires forall k :: j < k < |b| ==> b[k] == sorted[k - 1]
    ensures b == Insert(sorted, key)
  {
    assert forall k :: 0 <= k < j ==> sorted[k].score >= key.score by {
      if j > 0 {
        assert forall k :: 0 <= k < j ==> sorted[k].score >= sorted[j - 1].score;
      }
    }
    InsertAt(sorted, key, j);
    var inserted := Insert(sorted, key);
    forall k | 0 <= k < |b| ensures b[k] == inserted[k] {
    }
  }

  /** One step of the in-place sort: the element at index `i` moves left past every
      element of the sorted prefix that scores strictly less. */
  method InsertIntoPrefix(a: array<Ranked>, i: nat)
    requires i < a.Length
    requires SortedDesc(a[..i])
    modifies a
    ensures a[..i + 1] == Insert(old(a[..i]), old(a[i]))
    ensures forall k :: i < k < a.Length ==> a[k] == old(a[k])
  {
    ghost var sorted := a[..i];
    var key := a[i];
    var j := i;
    while j > 0 && a[j - 1].score < key.score
      invariant 0 <= j <= i
      invariant forall k :: 0 <= k < j ==> a[k] == sorted[k]
      invariant forall k :: j < k <= i ==> a[k] == sorted[k - 1]
      invariant forall k :: i < k < a.Length ==> a[k] == old(a[k])
      invariant forall k :: j <= k < i ==> sorted[k].score < key.score
    {
      a[j] := a[j - 1];
      j := j - 1;
    }
    a[j] := key;
    InsertedLayout(sorted, key, j, a[..i + 1]);
  }

  /** The in-place sort on descending score: each element in turn is inserted into the
      sorted prefix before it. */
  method SortByScore(a: array<Ranked>)
    modifies a
    ensures a[..] == SortDesc(old(a[..]))
  {
    ghost var input := a[..];
    var i := 0;
    while i < a.Length
      invariant 0 <= i <= a.Length
      invariant a[..i] == SortDesc(input[..i])
      invariant forall k :: i <= k < a.Length ==> a[k] == input[k]
    {
      SortDescCorrect(input[..i]);
      InsertIntoPrefix(a, i);
      assert input[..i + 1] == input[..i] + [input[i]];
      i := i + 1;
    }
    assert input[..a.Length] == input;
  }
}

=== FILE: server.dfy ===
/** The two request handlers of the prediction server, `/predict` and `/suggestions`, over
    the database as a value. Distances between coordinates come from a given function. */
module Server {
  import opened Js
  import opened Ranking

  /** The query string of a request; a parameter that is not sent is None. */
  datatype Query = Query(
    taxiType: Option<string>,
    hour: Option<string>,
    date: Option<string>,
    puLocationId: Option<string>)

  /** A row of the `taxi_zone` table. */
  datatype ZoneRow = ZoneRow(locationId: int, zone: string, latitude: Coordinate, longitude: Coordinate)

  /** A row of a `<type>_pred` table: the predicted demand of one pickup zone at one hour.
      `PULocationID` and `hour` are INTEGER columns, `date` and `predicted_level` TEXT. */
  datatype PredRow = PredRow(puLocationId: int, hour: int, date: string, predictedLevel: Option<string>)

  /** The database: the zone table and the prediction tables by name. */
  datatype Db = Db(taxiZone: seq<ZoneRow>, predTables: map<string, seq<PredRow>>)

  /** The error answers: 400 and 404 with their messages, and 500 for a failing query. */
  datatype HttpError = BadRequest(message: string) | NotFound(message: string) | InternalError

  datatype Response<T> = Ok(body: T) | Fail(error: HttpError)

  /** Distance in kilometres between two coordinate pairs (the haversine formula). */
  type Distance = (Coordinate, Coordinate, Coordinate, Coordinate) -> real

  /** Whether the text bound to `column = ?` selects the value `n` of an INTEGER column
      (`LocationID`, `PULocationID`, `hour`): SQLite turns a well-formed integer text into
      a number before the comparison, so "07" selects 7. */
  predicate MatchesInteger(param: string, n: int)
  {
    ParseDecimal(param) == Some(n)
  }

  /** `${type}_pred`, where an absent type prints as "undefined". */
  function PredTableName(taxiType: Option<string>): string
  {
    (if taxiType.Some? then taxiType.value else "undefined") + "_pred"
  }

  // ---------------------------------------------------------------- /predict

  predicate PredictMatches(p: PredRow, hour: string, date: string, location: string)
  {
    MatchesInteger(hour, p.hour) && p.date == date && MatchesInteger(location, p.puLocationId)
  }

  /** `SELECT predicted_level FROM <table> WHERE hour = ? AND date = ? AND PULocationID = ?`:
      the levels of exactly the matching rows, in table order. */
  function SelectLevels(rows: seq<PredRow>, hour: string, date: string, location: string): (levels: seq<Option<string>>)
    ensures |levels| <= |rows|
    ensures forall p :: p in rows && PredictMatches(p, hour, date, location) ==> p.predictedLevel in levels
    ensures forall l :: l in levels ==>
      exists p :: p in rows && PredictMatches(p, hour, date, location) && p.predictedLevel == l
    ensures |rows| == 1 ==>
      levels == if PredictMatches(rows[0], hour, date, location) then [rows[0].predictedLevel] else []
  {
    if rows == [] then []
    else
      var rest := SelectLevels(rows[1..], hour, date, location);
      assert forall p :: p in rows[1..] ==> p in rows;
      if PredictMatches(rows[0], hour, date, location) then [rows[0].predictedLevel] + rest else rest
  }

  /** The selection works row by row: selecting from a concatenation selects from each
      part. With the one-row case of `SelectLevels`, this pins the result down as the
      levels of the matching rows, one per row, in table order. */
  lemma {:induction false} SelectLevelsAppend(a: seq<PredRow>, b: seq<PredRow>, hour: string, date: string, location: string)
    ensures SelectLevels(a + b, hour, date, location)
      == SelectLevels(a, hour, date, location) + SelectLevels(b, hour, date, location)
  {
    if a == [] {
      assert a + b == b;
    } else {
      assert (a + b)[0] == a[0];
      assert (a + b)[1..] == a[1..] + b;
      SelectLevelsAppend(a[1..], b, hour, date, location);
    }
  }

  /** The `/predict` handler: 400 exactly when hour, date or PULocationID is missing or
      empty (the taxi type is not checked), 500 when the `<type>_pred` table does not
      exist, otherwise the selected levels. */
  function Predict(q: Query, db: Db): (r: Response<seq<Option<string>>>)
    ensures r.Fail? && r.error.BadRequest?
      <==> !(Truthy(q.hour) && Truthy(q.date) && Truthy(q.puLocationId))
    ensures r.Fail? && r.error.InternalError?
      <==> Truthy(q.hour) && Truthy(q.date) && Truthy(q.puLocationId)
           && PredTableName(q.taxiType) !in db.predTables
    ensures r.Ok? ==> |r.body| <= |db.predTables[PredTableName(q.taxiType)]|
    ensures r.Ok? ==>
      (r.body == SelectLevels(db.predTables[PredTableName(q.taxiType)], q.hour.value, q.date.value, q.puLocationId.value))
  {
    if !(Truthy(q.hour) && Truthy(q.date) && Truthy(q.puLocationId)) then
      Fail(BadRequest("Missing hour, date or PULocationID parameter"))
    else if PredTableName(q.taxiType) !in db.predTables then
      Fail(InternalError)
    else
      Ok(SelectLevels(db.predTables[PredTableName(q.taxiType)], q.hour.value, q.date.value, q.puLocationId.value))
  }

  /** The hour a panel sends, zero-padded to two digits, selects exactly the rows of that
      hour, in `/predict` and in the join of `/suggestions` alike. */
  lemma PaddedHourSelects(p: PredRow, z: ZoneRow, hour: nat, date: string, location: string)
    ensures PredictMatches(p, PadStartTwo(hour), date, location)
      <==> p.hour == hour && p.date == date && MatchesInteger(location, p.puLocationId)
    ensures OnClause(z, p, PadStartTwo(hour), date)
      <==> z.locationId == p.puLocationId && p.hour == hour && p.date == date
  {
    ParsePadStartTwo(hour);
  }

  // ------------------------------------------------------------ /suggestions

  /** `db.get(SELECT latitude, longitude FROM taxi_zone WHERE LocationID = ?)`: the first
      matching zone row, if any. */
  function FindOrigin(zones: seq<ZoneRow>, location: string): (o: Option<ZoneRow>)
    ensures o.None? <==> forall z :: z in zones ==> !MatchesInteger(location, z.locationId)
    ensures o.Some? ==> o.value in zones && MatchesInteger(location, o.value.locationId)
  {
    if zones == [] then None
    else if MatchesInteger(location, zones[0].locationId) then Some(zones[0])
    else
      var rest := FindOrigin(zones[1..], location);
      assert forall z :: z in zones ==> z == zones[0] || z in zones[1..];
      rest
  }

  /** A row of the join: a zone and the predicted level found for it (None when the left
      join found no prediction). */
  datatype Joined = Joined(zone: ZoneRow, predictedLevel: Option<string>)

  predicate OnClause(z: ZoneRow, p: PredRow, hour: string, date: string)
  {
    z.locationId == p.puLocationId && MatchesInteger(hour, p.hour) && p.date == date
  }

  /** The prediction rows the `ON` clause pairs with zone `z`. */
  function JoinedPreds(z: ZoneRow, preds: seq<PredRow>, hour: string, date: string): (ps: seq<PredRow>)
    ensures forall p :: p in ps <==> p in preds && OnClause(z, p, hour, date)
    ensures |preds| == 1 ==> (ps == if OnClause(z, preds[0], hour, date) then preds else [])
  {
    if preds == [] then []
    else
      var rest := JoinedPreds(z, preds[1..], hour, date);
      assert forall p :: p in preds <==> p == preds[0] || p in preds[1..];
      if OnClause(z, preds[0], hour, date) then [preds[0]] + rest else rest
  }

  /** The pairing works row by row: joining a concatenation joins each part in turn. With
      the one-row case of `JoinedPreds`, this pins the result down as the matching rows,
      one per row, duplicates included, in table order. */
  lemma {:induction false} JoinedPredsAppend(z: ZoneRow, a: seq<PredRow>, b: seq<PredRow>, hour: string, date: string)
    ensures JoinedPreds(z, a + b, hour, date) == JoinedPreds(z, a, hour, date) + JoinedPreds(z, b, hour, date)
  {
    if a == [] {
      assert a + b == b;
    } else {
      assert (a + b)[0] == a[0];
      assert (a + b)[1..] == a[1..] + b;
      JoinedPredsAppend(z, a[1..], b, hour, date);
    }
  }

  /** The left join of one zone: one row per matching prediction, or one row with no level. */
  function JoinZone(z: ZoneRow, preds: seq<PredRow>, hour: string, date: string): (rows: seq<Joined>)
    ensures |rows| > 0
    ensures forall r :: r in rows ==> r.zone == z
    ensures JoinedPreds(z, preds, hour, date) == [] ==> (rows == [Joined(z, None)])
    ensures JoinedPreds(z, preds, hour, date) != [] ==>
      (&& |rows| == |JoinedPreds(z, preds, hour, date)|
       && forall i :: 0 <= i < |rows| ==> rows[i] == Joined(z, JoinedPreds(z, preds, hour, date)[i].predictedLevel))
  {
    var ps := JoinedPreds(z, preds, hour, date);
    if ps == [] then [Joined(z, None)]
    else seq(|ps|, i requires 0 <= i < |ps| => Joined(z, ps[i].predictedLevel))
  }

  /** `SELECT ... FROM taxi_zone z LEFT JOIN <table> p ON z.LocationID = p.PULocationID
      AND p.hour = ? AND p.date = ? WHERE z.LocationID != ?`: every zone other than the
      origin appears, and no row is about the origin. */
  function LeftJoin(zones: seq<ZoneRow>, preds: seq<PredRow>, hour: string, date: string, location: string): (rows: seq<Joined>)
    ensures forall r :: r in rows ==> r.zone in zones && !MatchesInteger(location, r.zone.locationId)
    ensures forall z :: z in zones && !MatchesInteger(location, z.locationId) ==>
      exists r :: r in rows && r.zone == z
    ensures forall r :: r in rows ==> r in JoinZone(r.zone, preds, hour, date)
    ensures |zones| == 1 ==>
      (rows == if MatchesInteger(location, zones[0].locationId) then [] else JoinZone(zones[0], preds, hour, date))
  {
    if zones == [] then []
    else
      var rest := LeftJoin(zones[1..], preds, hour, date, location);
      assert forall z :: z in zones <==> z == zones[0] || z in zones[1..];
      if MatchesInteger(location, zones[0].locationId) then rest
      else
        var here := JoinZone(zones[0], preds, hour, date);
        assert here[0] in here + rest;
        here + rest
  }

  /** The `zones.map` step: the distance from the origin, the level defaulting to
      "Medium", and that level's score. */
  function Candidate(j: Joined, origin: ZoneRow, distance: Distance): Ranked
  {
    var level := DemandLevel(j.predictedLevel);
    Ranked(
      j.zone.locationId, j.zone.zone,
      distance(origin.latitude, origin.longitude, j.zone.latitude, j.zone.longitude),
      level, LevelScore(level), j.zone.latitude, j.zone.longitude, 0.0)
  }

  /** The join works zone by zone: joining a concatenation of zone tables joins each part
      in turn. With the one-zone case of `LeftJoin`, this pins the result down as the
      `JoinZone` rows of every zone other than the origin, in table order, so a zone gets
      one row per paired prediction row. */
  lemma {:induction false} LeftJoinAppend(a: seq<ZoneRow>, b: seq<ZoneRow>, preds: seq<PredRow>, hour: string, date: string, location: string)
    ensures LeftJoin(a + b, preds, hour, date, location)
      == LeftJoin(a, preds, hour, date, location) + LeftJoin(b, preds, hour, date, location)
  {
    if a == [] {
      assert a + b == b;
    } else {
      assert (a + b)[0] == a[0];
      assert (a + b)[1..] == a[1..] + b;
      LeftJoinAppend(a[1..], b, preds, hour, date, location);
    }
  }

  /** A zone that no prediction row of the hour and date pairs with joins once, with a
      null level, and so becomes a "Medium" candidate with predicted value 3. */
  lemma {:induction false} UnmatchedZoneIsMedium(z: ZoneRow, preds: seq<PredRow>, hour: string, date: string, origin: ZoneRow, distance: Distance)
    requires forall p :: p in preds ==> !OnClause(z, p, hour, date)
    ensures JoinedPreds(z, preds, hour, date) == []
    ensures JoinZone(z, preds, hour, date) == [Joined(z, None)]
    ensures Candidate(Joined(z, None), origin, distance).level == "Medium"
    ensures Candidate(Joined(z, None), origin, distance).predictedValue == 3
  {
    if preds != [] {
      assert preds[0] in preds;
      assert forall p :: p in preds[1..] ==> p in preds;
      UnmatchedZoneIsMedium(z, preds[1..], hour, date, origin, distance);
    }
  }

  /** One candidate per joined row, in order: the zone's own fields, its level defaulting
      to "Medium", a predicted value in 1..5, and no score yet. */
  function Candidates(rows: seq<Joined>, origin: ZoneRow, distance: Distance): (rs: seq<Ranked>)
    ensures |rs| == |rows|
    ensures forall i :: 0 <= i < |rs| ==>
      && rs[i].locationId == rows[i].zone.locationId && rs[i].zone == rows[i].zone.zone
      && rs[i].latitude == rows[i].zone.latitude && rs[i].longitude == rows[i].zone.longitude
      && rs[i].level == (if Truthy(rows[i].predictedLevel) then rows[i].predictedLevel.value else "Medium")
      && rs[i].predictedValue == LevelScore(rs[i].level) && 1 <= rs[i].predictedValue <= 5
      && rs[i].distance == distance(origin.latitude, origin.longitude, rows[i].zone.latitude, rows[i].zone.longitude)
      && rs[i].score == 0.0
  {
    seq(|rows|, i requires 0 <= i < |rows| => Candidate(rows[i], origin, distance))
  }

  /** One entry of the answer: the zone's fields and the origin's coordinates. */
  datatype Suggestion = Suggestion(
    locationId: int,
    zone: string,
    distance: real,
    predictedLevel: string,
    latitude: Coordinate,
    longitude: Coordinate,
    originLat: Coordinate,
    originLng: Coordinate)

  function Project(r: Ranked, origin: ZoneRow): Suggestion
  {
    Suggestion(r.locationId, r.zone, r.distance, r.level, r.latitude, r.longitude, origin.latitude, origin.longitude)
  }

  /** The `.map` projection: each entry keeps its candidate's ID, zone, distance, level and
      coordinates, drops the predicted value and the score, and adds the origin's coordinates. */
  function ProjectAll(top: seq<Ranked>, origin: ZoneRow): (out: seq<Suggestion>)
    ensures |out| == |top|
    ensures forall i :: 0 <= i < |out| ==>
      && out[i].locationId == top[i].locationId && out[i].zone == top[i].zone
      && out[i].distance == top[i].distance && out[i].predictedLevel == top[i].level
      && out[i].latitude == top[i].latitude && out[i].longitude == top[i].longitude
      && out[i].originLat == origin.latitude && out[i].originLng == origin.longitude
  {
    seq(|top|, i requires 0 <= i < |top| => Project(top[i], origin))
  }

  predicate SuggestionsParamsPresent(q: Query)
  {
    Truthy(q.taxiType) && Truthy(q.hour) && Truthy(q.date) && Truthy(q.puLocationId)
  }

  /** The candidate zones of a request whose parameters are present and whose origin exists. */
  function RequestCandidates(q: Query, db: Db, origin: ZoneRow, distance: Distance): seq<Ranked>
    requires SuggestionsParamsPresent(q) && PredTableName(q.taxiType) in db.predTables
  {
    var rows := LeftJoin(db.taxiZone, db.predTables[PredTableName(q.taxiType)],
                         q.hour.value, q.date.value, q.puLocationId.value);
    Candidates(rows, origin, distance)
  }

  /** What `/suggestions` answers: 400 when a parameter is missing, 404 when the origin zone
      does not exist, 500 when the `<type>_pred` table does not exist, and otherwise the
      three best-scoring zones with the origin's coordinates. */
  function SuggestionsAnswer(q: Query, db: Db, distance: Distance): (r: Response<seq<Suggestion>>)
    ensures r.Fail? && r.error.BadRequest? <==> !SuggestionsParamsPresent(q)
    ensures r.Fail? && r.error.NotFound?
      <==> SuggestionsParamsPresent(q) && FindOrigin(db.taxiZone, q.puLocationId.value).None?
    ensures r.Fail? && r.error.InternalError?
      <==> && SuggestionsParamsPresent(q) && FindOrigin(db.taxiZone, q.puLocationId.value).Some?
           && PredTableName(q.taxiType) !in db.predTables
  {
    if !SuggestionsParamsPresent(q) then
      Fail(BadRequest("Missing type, hour, date or PULocationID parameter"))
    else
      match FindOrigin(db.taxiZone, q.puLocationId.value)
      case None => Fail(NotFound("PULocationID not found in taxi_zone"))
      case Some(origin) =>
        if PredTableName(q.taxiType) !in db.predTables then Fail(InternalError)
        else
          var ranked := SortDesc(Scored(RequestCandidates(q, db, origin, distance)));
          Ok(ProjectAll(TopThree(ranked), origin))
  }

  /** The `/suggestions` handler: the scoring pass and the sort run in place on an array of
      candidates, as the handler does on its `results` array. */
  method Suggestions(q: Query, db: Db, distance: Distance) returns (r: Response<seq<Suggestion>>)
    ensures r == SuggestionsAnswer(q, db, distance)
  {
    if !SuggestionsParamsPresent(q) {
      return Fail(BadRequest("Missing type, hour, date or PULocationID parameter"));
    }
    var origin := FindOrigin(db.taxiZone, q.puLocationId.value);
    if origin.None? {
      return Fail(NotFound("PULocationID not found in taxi_zone"));
    }
    if PredTableName(q.taxiType) !in db.predTables {
      return Fail(InternalError);
    }
    var results := RequestCandidates(q, db, origin.value, distance);
    var a := new Ranked[|results|](i requires 0 <= i < |results| => results[i]);
    assert a[..] == results;
    if a.Length > 0 {
      var maxDistance := MaxDistance(results);
      AssignScores(a, maxDistance);
    }
    assert a[..] == Scored(results);
    SortByScore(a);
    r := Ok(ProjectAll(TopThree(a[..]), origin.value));
  }

  /** `/suggestions` answers 400, and ranks nothing, exactly when type, hour, date or
      PULocationID is missing or empty; `/predict` does not require the type. */
  lemma MissingParameters(q: Query, db: Db, distance: Distance)
    ensures SuggestionsAnswer(q, db, distance).Fail? && SuggestionsAnswer(q, db, distance).error.BadRequest?
      <==> !SuggestionsParamsPresent(q)
    ensures Truthy(q.hour) && Truthy(q.date) && Truthy(q.puLocationId)
      ==> !(Predict(q, db).Fail? && Predict(q, db).error.BadRequest?)
  {
  }

  /** An origin LocationID without a `taxi_zone` row gives 404 and no suggestions. */
  lemma UnknownOrigin(q: Query, db: Db, distance: Distance)
    requires SuggestionsParamsPresent(q)
    requires forall z :: z in db.taxiZone ==> !MatchesInteger(q.puLocationId.value, z.locationId)
    ensures SuggestionsAnswer(q, db, distance) == Fail(NotFound("PULocationID not found in taxi_zone"))
  {
  }

  /** An entry of the answer to a request from `location`: a zone of the table other than
      the origin, with the zone's own fields and the origin's coordinates. */
  predicate OtherZoneEntry(db: Db, location: string, origin: ZoneRow, s: Suggestion)
  {
    && !MatchesInteger(location, s.locationId)
    && (exists z :: z in db.taxiZone && z.locationId == s.locationId && z.zone == s.zone
          && z.latitude == s.latitude && z.longitude == s.longitude)
    && s.originLat == origin.latitude && s.originLng == origin.longitude
  }

  /** Each zone ranked among the best three becomes an entry for another zone of the table. */
  lemma RankedFromTable(q: Query, db: Db, origin: ZoneRow, distance: Distance, t: Ranked)
    requires SuggestionsParamsPresent(q) && PredTableName(q.taxiType) in db.predTables
    requires t in TopThree(SortDesc(Scored(RequestCandidates(q, db, origin, distance))))
    ensures OtherZoneEntry(db, q.puLocationId.value, origin, Project(t, origin))
  {
    var rows := LeftJoin(db.taxiZone, db.predTables[PredTableName(q.taxiType)],
                         q.hour.value, q.date.value, q.puLocationId.value);
    var cands := RequestCandidates(q, db, origin, distance);
    var k := SelectedFromCandidates(cands, t);
    assert cands[k] == Candidate(rows[k], origin, distance);
    assert rows[k] in rows;
    assert rows[k].zone in db.taxiZone;
  }

  /** Projecting a list whose every element projects to an entry for another zone gives
      only such entries. */
  lemma ProjectEach(db: Db, location: string, origin: ZoneRow, top: seq<Ranked>)
    requires forall t :: t in top ==> OtherZoneEntry(db, location, origin, Project(t, origin))
    ensures forall i :: 0 <= i < |ProjectAll(top, origin)| ==> OtherZoneEntry(db, location, origin, ProjectAll(top, origin)[i])
  {
    var body := ProjectAll(top, origin);
    forall i | 0 <= i < |body| ensures OtherZoneEntry(db, location, origin, body[i]) {
      assert top[i] in top;
      assert body[i] == Project(top[i], origin);
    }
  }

  /** The projected best three are at most three entries for other zones of the table. */
  lemma ProjectedTop(q: Query, db: Db, origin: ZoneRow, distance: Distance)
    requires SuggestionsParamsPresent(q) && PredTableName(q.taxiType) in db.predTables
    ensures var body := ProjectAll(TopThree(SortDesc(Scored(RequestCandidates(q, db, origin, distance)))), origin);
      && |body| <= 3
      && forall i :: 0 <= i < |body| ==> OtherZoneEntry(db, q.puLocationId.value, origin, body[i])
  {
    var top := TopThree(SortDesc(Scored(RequestCandidates(q, db, origin, distance))));
    forall t | t in top ensures OtherZoneEntry(db, q.puLocationId.value, origin, Project(t, origin)) {
      RankedFromTable(q, db, origin, distance, t);
    }
    ProjectEach(db, q.puLocationId.value, origin, top);
  }

  /** A successful answer holds at most three entries; none of them is the origin zone,
      each is a zone of the table, and each carries the origin's coordinates unchanged. */
  lemma SuggestionsShape(q: Query, db: Db, distance: Distance)
    requires SuggestionsAnswer(q, db, distance).Ok?
    ensures SuggestionsParamsPresent(q) && FindOrigin(db.taxiZone, q.puLocationId.value).Some?
    ensures var body := SuggestionsAnswer(q, db, distance).body;
      var origin := FindOrigin(db.taxiZone, q.puLocationId.value).value;
      && |body| <= 3
      && forall i :: 0 <= i < |body| ==> OtherZoneEntry(db, q.puLocationId.value, origin, body[i])
  {
    ProjectedTop(q, db, FindOrigin(db.taxiZone, q.puLocationId.value).value, distance);
  }
}

=== FILE: zone_enrich.dfy ===
/** The zone enrichment script: it reads the `taxi_zone` table into a data frame, then for
    each row in order builds the address "<Zone>, <Borough>, New York City", asks the
    geocoding service for it, collects the coordinates and pauses; then it assigns the
    collected lists as the `latitude` and `longitude` columns and replaces the table with
    the frame. The geocoding service is a given function from address to reply. */
module ZoneEnrich {
  import opened Js

  const TableName := "taxi_zone"
  const LatitudeColumn := "latitude"
  const LongitudeColumn := "longitude"

  /** A table cell: text, a number, or null. */
  datatype Cell = Text(text: string) | Number(value: real) | Null

  datatype Column = Column(name: string, cells: seq<Cell>)

  /** A table as named columns of `height` cells each. */
  datatype Frame = Frame(columns: seq<Column>, height: nat)

  predicate DistinctNames(columns: seq<Column>)
  {
    forall i, j :: 0 <= i < j < |columns| ==> columns[i].name != columns[j].name
  }

  predicate WellFormed(f: Frame)
  {
    && (forall i :: 0 <= i < |f.columns| ==> |f.columns[i].cells| == f.height)
    && DistinctNames(f.columns)
  }

  /** The position of the column called `name`, if there is one. */
  function ColumnIndex(columns: seq<Column>, name: string): (k: Option<nat>)
    ensures k.Some? ==> k.value < |columns| && columns[k.value].name == name
    ensures k.None? <==> forall i :: 0 <= i < |columns| ==> columns[i].name != name
  {
    if columns == [] then None
    else if columns[0].name == name then Some(0)
    else
      match ColumnIndex(columns[1..], name)
      case None => None
      case Some(k) => Some(k + 1)
  }

  /** With distinct names, the column found for a name is the one that carries it. */
  lemma {:induction false} IndexOfName(columns: seq<Column>, k: nat)
    requires k < |columns|
    requires DistinctNames(columns)
    ensures ColumnIndex(columns, columns[k].name) == Some(k)
  {
    if k > 0 {
      assert columns[0].name != columns[k].name;
      IndexOfName(columns[1..], k - 1);
    }
  }

  /** Column `name` exists and holds text in every row. */
  predicate TextColumn(f: Frame, name: string)
    requires WellFormed(f)
  {
    var k := ColumnIndex(f.columns, name);
    k.Some? && forall r :: 0 <= r < f.height ==> f.columns[k.value].cells[r].Text?
  }

  /** A frame the script can process: the `Zone` and `Borough` columns hold text. */
  predicate Enrichable(f: Frame)
  {
    WellFormed(f) && TextColumn(f, "Zone") && TextColumn(f, "Borough")
  }

  function TextAt(f: Frame, name: string, row: nat): string
    requires WellFormed(f) && TextColumn(f, name) && row < f.height
  {
    f.columns[ColumnIndex(f.columns, name).value].cells[row].text
  }

  /** `f"{row['Zone']}, {row['Borough']}, New York City"`. */
  function Address(zone: string, borough: string): (a: string)
    ensures |a| == |zone| + |borough| + 17
  {
    zone + ", " + borough + ", New York City"
  }

  function RowAddress(f: Frame, row: nat): string
    requires Enrichable(f) && row < f.height
  {
    Address(TextAt(f, "Zone", row), TextAt(f, "Borough", row))
  }

  /** The address is the zone, the borough and the city, each separated by ", ", so the
      zone and the borough can be read back from it. */
  lemma {:induction false} AddressParts(zone: string, borough: string)
    ensures Address(zone, borough)[..|zone|] == zone
    ensures Address(zone, borough)[|zone|..|zone| + 2] == ", "
    ensures Address(zone, borough)[|zone| + 2..|zone| + 2 + |borough|] == borough
    ensures Address(zone, borough)[|zone| + 2 + |borough|..] == ", New York City"
  {
    var a := Address(zone, borough);
    assert a == zone + (", " + (borough + ", New York City"));
  }

  /** One place of the service's JSON answer, with its coordinates already read as numbers. */
  datatype Place = Place(lat: real, lon: real)

  /** What a lookup gives the script: a list of places, or an exception (the request fails,
      the body is not JSON, a field is missing). */
  datatype Reply = Raises | Places(places: seq<Place>)

  /** `get_coordinates_nominatim`: the first place's coordinates, (None, None) for an empty
      list, and None when the call raises. */
  function Lookup(reply: Reply): (c: Option<(Coordinate, Coordinate)>)
    ensures c.None? <==> reply.Raises?
    ensures c.Some? && reply.places != [] ==> c.value == (Some(reply.places[0].lat), Some(reply.places[0].lon))
    ensures c.Some? && reply.places == [] ==> c.value == (None, None)
    ensures c.Some? ==> (c.value.0.Some? <==> c.value.1.Some?)
  {
    match reply
    case Raises => None
    case Places(ps) => if ps != [] then Some((Some(ps[0].lat), Some(ps[0].lon))) else Some((None, None))
  }

  /** No lookup of the frame's rows raises. */
  predicate NoneRaises(f: Frame, geocode: string -> Reply)
    requires Enrichable(f)
  {
    forall r :: 0 <= r < f.height ==> !geocode(RowAddress(f, r)).Raises?
  }

  /** A number cell for a found coordinate, a null cell otherwise. */
  function CoordinateCell(c: Coordinate): Cell
  {
    if c.Some? then Number(c.value) else Null
  }

  function Cells(cs: seq<Coordinate>): (cells: seq<Cell>)
    ensures |cells| == |cs|
  {
    seq(|cs|, i requires 0 <= i < |cs| => CoordinateCell(cs[i]))
  }

  /** A column whose name is new, added at the end, is found at the end. */
  lemma AppendColumn(columns: seq<Column>, col: Column)
    requires DistinctNames(columns)
    requires forall i :: 0 <= i < |columns| ==> columns[i].name != col.name
    ensures DistinctNames(columns + [col])
    ensures ColumnIndex(columns + [col], col.name) == Some(|columns|)
  {
    IndexOfName(columns + [col], |columns|);
  }

  /** A column put in place of the one of the same name is found there, and every other
      column stays. */
  lemma ReplaceColumn(columns: seq<Column>, k: nat, col: Column)
    requires DistinctNames(columns) && k < |columns| && columns[k].name == col.name
    ensures DistinctNames(columns[k := col])
    ensures ColumnIndex(columns[k := col], col.name) == Some(k)
    ensures forall c :: c in columns && c.name != col.name ==> c in columns[k := col]
    ensures forall c :: c in columns[k := col] && c.name != col.name ==> c in columns
  {
    var g := columns[k := col];
    assert DistinctNames(g) by {
      forall i, j | 0 <= i < j < |g| ensures g[i].name != g[j].name {
        assert g[i].name == columns[i].name && g[j].name == columns[j].name;
      }
    }
    IndexOfName(g, k);
    forall c | c in columns && c.name != col.name ensures c in g {
      var i :| 0 <= i < |columns| && columns[i] == c;
      assert g[i] == c;
    }
    forall c | c in g && c.name != col.name ensures c in columns {
      var i :| 0 <= i < |g| && g[i] == c;
      assert columns[i] == c;
    }
  }

  /** `df[name] = cells`: an existing column of that name is replaced where it stands,
      otherwise the column is added at the end. */
  function WithColumn(f: Frame, name: string, cells: seq<Cell>): (g: Frame)
    requires WellFormed(f) && |cells| == f.height
    ensures WellFormed(g) && g.height == f.height
    ensures ColumnIndex(g.columns, name).Some?
    ensures g.columns[ColumnIndex(g.columns, name).value] == Column(name, cells)
    ensures forall c :: c in f.columns && c.name != name ==> c in g.columns
    ensures forall c :: c in g.columns && c.name != name ==> c in f.columns
    ensures ColumnIndex(f.columns, name).None? ==> g.columns == f.columns + [Column(name, cells)]
  {
    match ColumnIndex(f.columns, name)
    case None =>
      AppendColumn(f.columns, Column(name, cells));
      Frame(f.columns + [Column(name, cells)], f.height)
    case Some(k) =>
      ReplaceColumn(f.columns, k, Column(name, cells));
      Frame(f.columns[k := Column(name, cells)], f.height)
  }

  /** The lookups of all rows, in row order, when none of them raises. */
  function Found(f: Frame, geocode: string -> Reply): (found: seq<(Coordinate, Coordinate)>)
    requires Enrichable(f) && NoneRaises(f, geocode)
    ensures |found| == f.height
  {
    seq(f.height, r requires 0 <= r < f.height => Lookup(geocode(RowAddress(f, r))).value)
  }

  function LatitudeCells(f: Frame, geocode: string -> Reply): (cells: seq<Cell>)
    requires Enrichable(f) && NoneRaises(f, geocode)
    ensures |cells| == f.height
  {
    var found := Found(f, geocode);
    seq(f.height, r requires 0 <= r < f.height => CoordinateCell(found[r].0))
  }

  function LongitudeCells(f: Frame, geocode: string -> Reply): (cells: seq<Cell>)
    requires Enrichable(f) && NoneRaises(f, geocode)
    ensures |cells| == f.height
  {
    var found := Found(f, geocode);
    seq(f.height, r requires 0 <= r < f.height => CoordinateCell(found[r].1))
  }

  /** The table the script writes back: the frame with the latitudes and longitudes of
      its rows assigned as two columns. */
  function Enriched(f: Frame, geocode: string -> Reply): (g: Frame)
    requires Enrichable(f) && NoneRaises(f, geocode)
    ensures WellFormed(g) && g.height == f.height
  {
    WithColumn(WithColumn(f, LatitudeColumn, LatitudeCells(f, geocode)), LongitudeColumn, LongitudeCells(f, geocode))
  }

  /** The written table has one row per input row; every original column other than
      `latitude` and `longitude` passes through unchanged and no other column appears. */
  lemma EnrichedColumns(f: Frame, geocode: string -> Reply)
    requires Enrichable(f) && NoneRaises(f, geocode)
    ensures var g := Enriched(f, geocode);
      && WellFormed(g) && g.height == f.height
      && (forall c :: c in f.columns && c.name != LatitudeColumn && c.name != LongitudeColumn ==> c in g.columns)
      && (forall c :: c in g.columns && c.name != LatitudeColumn && c.name != LongitudeColumn ==> c in f.columns)
  {
    var h := WithColumn(f, LatitudeColumn, LatitudeCells(f, geocode));
    var g := WithColumn(h, LongitudeColumn, LongitudeCells(f, geocode));
    assert g == Enriched(f, geocode);
    assert forall c :: c in f.columns && c.name != LatitudeColumn && c.name != LongitudeColumn ==> c in h.columns;
    assert forall c :: c in g.columns && c.name != LatitudeColumn && c.name != LongitudeColumn ==> c in h.columns;
  }

  /** A table without coordinate columns keeps its columns in order and gains exactly
      `latitude` and `longitude`, at the end. */
  lemma EnrichedAppends(f: Frame, geocode: string -> Reply)
    requires Enrichable(f) && NoneRaises(f, geocode)
    requires ColumnIndex(f.columns, LatitudeColumn).None? && ColumnIndex(f.columns, LongitudeColumn).None?
    ensures var g := Enriched(f, geocode);
      && |g.columns| == |f.columns| + 2 && g.columns[..|f.columns|] == f.columns
      && g.columns[|f.columns|].name == LatitudeColumn && g.columns[|f.columns| + 1].name == LongitudeColumn
  {
    var latCol := Column(LatitudeColumn, LatitudeCells(f, geocode));
    var lonCol := Column(LongitudeColumn, LongitudeCells(f, geocode));
    var h := WithColumn(f, LatitudeColumn, LatitudeCells(f, geocode));
    assert h.columns == f.columns + [latCol];
    forall i | 0 <= i < |h.columns| ensures h.columns[i].name != LongitudeColumn {
      if i < |f.columns| {
        assert h.columns[i] == f.columns[i];
      }
    }
    var g := WithColumn(h, LongitudeColumn, LongitudeCells(f, geocode));
    assert g.columns == h.columns + [lonCol];
    assert g.columns[..|f.columns|] == f.columns;
  }

  /** Row `r` of the written `latitude` and `longitude` columns is the lookup of row `r`'s
      address: a number for a place found, null when the service found nothing. */
  lemma EnrichedCells(f: Frame, geocode: string -> Reply, r: nat)
    requires Enrichable(f) && NoneRaises(f, geocode) && r < f.height
    ensures var g := Enriched(f, geocode);
      var found := Lookup(geocode(RowAddress(f, r))).value;
      && ColumnIndex(g.columns, LatitudeColumn).Some? && ColumnIndex(g.columns, LongitudeColumn).Some?
      && g.columns[ColumnIndex(g.columns, LatitudeColumn).value].cells[r] == CoordinateCell(found.0)
      && g.columns[ColumnIndex(g.columns, LongitudeColumn).value].cells[r] == CoordinateCell(found.1)
  {
    var h := WithColumn(f, LatitudeColumn, LatitudeCells(f, geocode));
    var g := WithColumn(h, LongitudeColumn, LongitudeCells(f, geocode));
    var latCol := Column(LatitudeColumn, LatitudeCells(f, geocode));
    assert latCol in h.columns;
    assert latCol in g.columns;
    var i :| 0 <= i < |g.columns| && g.columns[i] == latCol;
    IndexOfName(g.columns, i);
  }

  /** A table of two zones, Newark Airport and Jamaica Bay. */
  function TwoZones(): Frame
  {
    Frame([Column("Zone", [Text("Newark Airport"), Text("Jamaica Bay")]),
           Column("Borough", [Text("EWR"), Text("Queens")])], 2)
  }

  /** A service that finds Newark Airport and nothing else. */
  function FindsNewarkOnly(address: string): Reply
  {
    if address == Address("Newark Airport", "EWR") then Places([Place(40.6895, -74.1745)]) else Places([])
  }

  lemma TwoZonesEnrichable()
    ensures Enrichable(TwoZones())
  {
    var f := TwoZones();
    assert ColumnIndex(f.columns, "Zone") == Some(0);
    assert ColumnIndex(f.columns[1..], "Borough") == Some(0);
  }

  lemma TwoZonesAddresses()
    requires Enrichable(TwoZones())
    ensures RowAddress(TwoZones(), 0) == Address("Newark Airport", "EWR")
    ensures RowAddress(TwoZones(), 1) == Address("Jamaica Bay", "Queens")
  {
    var f := TwoZones();
    assert ColumnIndex(f.columns, "Zone") == Some(0);
    assert ColumnIndex(f.columns[1..], "Borough") == Some(0);
    assert TextAt(f, "Zone", 0) == "Newark Airport" && TextAt(f, "Borough", 0) == "EWR";
    assert TextAt(f, "Zone", 1) == "Jamaica Bay" && TextAt(f, "Borough", 1) == "Queens";
  }

  lemma TwoZonesCells()
    requires Enrichable(TwoZones())
    ensures NoneRaises(TwoZones(), FindsNewarkOnly)
    ensures LatitudeCells(TwoZones(), FindsNewarkOnly) == [Number(40.6895), Null]
    ensures LongitudeCells(TwoZones(), FindsNewarkOnly) == [Number(-74.1745), Null]
  {
    TwoZonesAddresses();
    AddressParts("Jamaica Bay", "Queens");
    AddressParts("Newark Airport", "EWR");
    assert Address("Jamaica Bay", "Queens")[1] != Address("Newark Airport", "EWR")[1];
  }

  /** The written table for the two zones: both rows in order, Newark Airport with its
      coordinates and Jamaica Bay with nulls. */
  lemma NewarkAndJamaicaBay()
    ensures Enrichable(TwoZones()) && NoneRaises(TwoZones(), FindsNewarkOnly)
    ensures Enriched(TwoZones(), FindsNewarkOnly)
         == Frame(TwoZones().columns + [Column(LatitudeColumn, [Number(40.6895), Null]),
                                        Column(LongitudeColumn, [Number(-74.1745), Null])], 2)
  {
    TwoZonesEnrichable();
    TwoZonesCells();
    var f := TwoZones();
    assert ColumnIndex(f.columns, LatitudeColumn).None?;
    assert ColumnIndex(f.columns, LongitudeColumn).None?;
    EnrichedAppends(f, FindsNewarkOnly);
    EnrichedCells(f, FindsNewarkOnly, 0);
    EnrichedCells(f, FindsNewarkOnly, 1);
    var g := Enriched(f, FindsNewarkOnly);
    assert ColumnIndex(g.columns, LatitudeColumn) == Some(2) by {
      IndexOfName(g.columns, 2);
    }
    assert ColumnIndex(g.columns, LongitudeColumn) == Some(3) by {
      IndexOfName(g.columns, 3);
    }
    assert g.columns[2].cells == [Number(40.6895), Null];
    assert g.columns[3].cells == [Number(-74.1745), Null];
  }

  /** The loop of the script: row by row in order, build the address, look it up, keep
      the coordinates, and pause once. A lookup that raises ends the loop at that row, with
      one pause for each row before it. */
  method CollectCoordinates(f: Frame, geocode: string -> Reply)
    returns (latitudes: seq<Coordinate>, longitudes: seq<Coordinate>, pauses: nat, raisedAt: Option<nat>)
    requires Enrichable(f)
    ensures raisedAt.None? <==> NoneRaises(f, geocode)
    ensures raisedAt.None? ==>
      && |latitudes| == |longitudes| == pauses == f.height
      && forall r :: 0 <= r < f.height ==> Lookup(geocode(RowAddress(f, r))) == Some((latitudes[r], longitudes[r]))
    ensures raisedAt.Some? ==>
      && raisedAt.value < f.height && pauses == raisedAt.value
      && geocode(RowAddress(f, raisedAt.value)).Raises?
      && forall r :: 0 <= r < raisedAt.value ==> !geocode(RowAddress(f, r)).Raises?
  {
    latitudes, longitudes, pauses := [], [], 0;
    var row := 0;
    while row < f.height
      invariant row <= f.height
      invariant |latitudes| == |longitudes| == pauses == row
      invariant forall r :: 0 <= r < row ==> Lookup(geocode(RowAddress(f, r))) == Some((latitudes[r], longitudes[r]))
    {
      var address := RowAddress(f, row);
      var found := Lookup(geocode(address));
      if found.None? {
        return latitudes, longitudes, pauses, Some(row);
      }
      latitudes := latitudes + [found.value.0];
      longitudes := longitudes + [found.value.1];
      pauses := pauses + 1;
      row := row + 1;
    }
    raisedAt := None;
  }

  /** The lists the loop collects become the cells of the written columns. */
  lemma CollectedCells(f: Frame, geocode: string -> Reply, latitudes: seq<Coordinate>, longitudes: seq<Coordinate>)
    requires Enrichable(f) && NoneRaises(f, geocode)
    requires |latitudes| == |longitudes| == f.height
    requires forall r :: 0 <= r < f.height ==> Lookup(geocode(RowAddress(f, r))) == Some((latitudes[r], longitudes[r]))
    ensures Cells(latitudes) == LatitudeCells(f, geocode)
    ensures Cells(longitudes) == LongitudeCells(f, geocode)
  {
  }

  /** Assigning the collected lists as the two columns gives the enriched table. */
  lemma AssignedColumns(f: Frame, geocode: string -> Reply, latitudes: seq<Coordinate>, longitudes: seq<Coordinate>)
    requires Enrichable(f) && NoneRaises(f, geocode)
    requires |latitudes| == |longitudes| == f.height
    requires forall r :: 0 <= r < f.height ==> Lookup(geocode(RowAddress(f, r))) == Some((latitudes[r], longitudes[r]))
    ensures var h := WithColumn(f, LatitudeColumn, Cells(latitudes));
      WithColumn(h, LongitudeColumn, Cells(longitudes)) == Enriched(f, geocode)
  {
    CollectedCells(f, geocode, latitudes, longitudes);
  }

  /** The data frame read from the table; assigning a column changes it in place. */
  class DataFrame {
    var columns: seq<Column>
    var height: nat

    function Value(): Frame
      reads this
    {
      Frame(columns, height)
    }

    /** `pd.read_sql_query(SELECT * FROM <table>)`. */
    constructor Read(table: Frame)
      ensures Value() == table
    {
      columns := table.columns;
      height := table.height;
    }

    /** `df[name] = values`. */
    method Assign(name: string, values: seq<Coordinate>)
      requires WellFormed(Value()) && |values| == height
      modifies this
      ensures Value() == WithColumn(old(Value()), name, Cells(values))
    {
      var g := WithColumn(Value(), name, Cells(values));
      columns := g.columns;
    }
  }

  /** The database file: its tables by name. */
  class Store {
    var tables: map<string, Frame>

    constructor (tables: map<string, Frame>)
      ensures this.tables == tables
    {
      this.tables := tables;
    }
  }

  /** How a run ends: the table replaced, the read failing (no such table), or a lookup
      raising at a row. */
  datatype RunOutcome = Updated | ReadFailed | LookupRaised(row: nat)

  /** The script's work on the frame read from the table: look up every row, then assign
      the two columns. It gives back the frame to write, or the row whose lookup raised. */
  method EnrichFrame(table: Frame, geocode: string -> Reply) returns (written: Option<Frame>, raisedAt: nat)
    requires Enrichable(table)
    ensures written.Some? <==> NoneRaises(table, geocode)
    ensures written.Some? ==> written.value == Enriched(table, geocode)
    ensures written.None? ==> raisedAt < table.height && geocode(RowAddress(table, raisedAt)).Raises?
  {
    var df := new DataFrame.Read(table);
    var latitudes, longitudes, pauses, raised := CollectCoordinates(df.Value(), geocode);
    if raised.Some? {
      return None, raised.value;
    }
    AssignedColumns(table, geocode, latitudes, longitudes);
    df.Assign(LatitudeColumn, latitudes);
    df.Assign(LongitudeColumn, longitudes);
    written, raisedAt := Some(df.Value()), 0;
  }

  /** The whole script against the store: the table is replaced only after every row has
      been looked up; a run that stops early leaves the store as it was. */
  method EnrichZoneTable(store: Store, geocode: string -> Reply) returns (outcome: RunOutcome)
    requires TableName in store.tables ==> Enrichable(store.tables[TableName])
    modifies store
    ensures outcome == ReadFailed <==> TableName !in old(store.tables)
    ensures outcome.Updated? <==> TableName in old(store.tables) && NoneRaises(old(store.tables)[TableName], geocode)
    ensures !outcome.Updated? ==> store.tables == old(store.tables)
    ensures outcome.Updated? ==>
      store.tables == old(store.tables)[TableName := Enriched(old(store.tables)[TableName], geocode)]
  {
    if TableName !in store.tables {
      return ReadFailed;
    }
    var written, raisedAt := EnrichFrame(store.tables[TableName], geocode);
    if written.None? {
      return LookupRaised(raisedAt);
    }
    store.tables := store.tables[TableName := written.value];
    outcome := Updated;
  }
}
